=== FILE: README.md ===
# Store lifecycle on a planet node: a Dafny model

This project models the decision logic of the node's embedded key-value store
lifecycle tool (`tool/planet/etcd.go`). That logic has four parts:

- **Version record.** `writeEtcdEnvironment` writes the current version, an
  optional backup version and a storage-backend tag as `key=value` lines.
  `readEtcdVersion` scans the lines back; a later line overrides an earlier one.
  A read fails unless a non-empty current version was found.
- **Store layout.** `getBaseEtcdDir` maps the sentinel version `v2.3.8` to the
  base directory `/ext/etcd`. Every other version maps to a subdirectory, built
  with Go's `path.Join`, which is modelled lexically together with `path.Clean`.
  A version's data lives in the `member` directory below that. The binaries are
  linked to version-suffixed executables.
- **Init** (`etcdInit`). It chooses the version to run: the recorded one first.
  Without a record, it takes the sentinel when legacy data exists. Otherwise it
  takes the desired release version and records it. It then lists the links it
  points at that version.
- **Upgrade and rollback** (`etcdUpgrade`). The run is re-entrant:
  - a proxy node does nothing;
  - a running store unit blocks the run;
  - rollback re-records the backup as current;
  - upgrade records the desired version with the old current one as backup, and
    wipes the displaced backup's data and the desired version's data;
  - the API server is restarted when it is not inactive.
- **Promotion** (`etcdPromote`). It upserts the four membership keys into the
  node environment and takes the service steps that turn a proxy into a member.
  A node already out of proxy mode is left alone.

The files, the unit states, the node environment and the target of the `latest`
link are inputs. Each flow returns the effects it takes, in order: record
writes, directory removals, restarts, systemctl calls and link set-ups. `Apply` replays those effects on an
abstract node, and that is how lemmas about repeated and composed runs are
stated.

Modules, from the bottom up:

- `Wrappers`: `Option` and `Result`.
- `Text`: splitting and joining, plus `bufio.ScanLines`.
- `Paths`: `path.Clean` and `path.Join`.
- `Names`: keys, paths and unit names.
- `Errors`: error kinds and file states.
- `Registry`: the record codec.
- `Layout`: directories and links.
- `Environment`: the node environment.
- `UpgradeFlow`, `InitFlow`, `Promotion`: the three flows.
- `Lifecycle`: how the flows compose.

## Model

| member | source | states |
|---|---|---|
| Registry.Backend | tool/planet/etcd.go:544-547 | the backend tag is `etcd2` exactly when the version is the sentinel, and `etcd3` otherwise |
| Registry.RecordTextLines | tool/planet/etcd.go:532-551 | `RecordText` models `writeEtcdEnvironment`. For values with no newline and no trailing carriage return, the text it writes scans back as the version line, then the backup line only when there is a backup, then the backend line |
| Text.LinesTerminated | tool/planet/etcd.go:495-499 | the line scanner reads newline-terminated lines back unchanged when none holds a newline or ends in a carriage return |
| Text.Lines | tool/planet/etcd.go:495-499 | the scanner yields one line per newline-separated token, with a non-empty unterminated tail counted and an empty one not. Each line loses one trailing carriage return and holds no newline |
| Registry.Field | tool/planet/etcd.go:501-503 | a line has a key and a value exactly when it holds `=`; the key holds no `=`, and key, `=` and value make up the whole line |
| Registry.FieldSplitsAtFirst | tool/planet/etcd.go:501-503 | a line splits at its first `=`: the key never holds `=`, the value may |
| Registry.AbsorbAssigns | tool/planet/etcd.go:504-509 | `Absorb` is one step of the read loop. A line setting the current-version key overwrites the current version, one setting the previous-version key overwrites the backup, and any other line changes neither |
| Registry.ParseRecord | tool/planet/etcd.go:514-517 | an accepted record has a non-empty current version; every rejection is the malformed-record error |
| Registry.ReadVersion | tool/planet/etcd.go:488-492 | a missing file gives NotFound and only then; an unreadable one gives an OS error and only then; otherwise the result is the parse of the file's text |
| Registry.Recorded | tool/planet/etcd.go:286-293 | a missing record file stands for the sentinel version with no backup; any other read result is passed on as it is |
| Registry.RoundTrip | tool/planet/etcd.go:488-554 | writing a record with a non-empty current version and reading it back gives the same current and backup versions, for values with no newline and no trailing carriage return |
| Registry.ScanRecordLines | tool/planet/etcd.go:498-512 | scanning a record's lines yields its versions; the backend line changes nothing |
| Registry.ScanValuesComeFromLines | tool/planet/etcd.go:498-512 | `Scan` is the whole read loop. A non-empty version it scans is the value that some line assigns to its key |
| Registry.ScanTakesLast | tool/planet/etcd.go:498-512 | when `Scan` meets a version key set on several lines, the last line wins |
| Registry.ScanUnassigned | tool/planet/etcd.go:498-512 | a version key that no line sets reads as the empty string |
| Registry.ParseMeaning | tool/planet/etcd.go:498-517 | relates the parse to the last lines that set each key, in both directions: it succeeds exactly when the last line setting the current version gives a non-empty value, which becomes the current version. The backup is the value on the last line setting it, or empty if no line does |
| Registry.ScanIgnoresPlainLine | tool/planet/etcd.go:501 | inserting a line without `=` anywhere leaves the scanned versions unchanged |
| Paths.Clean | tool/planet/etcd.go:351 | `path.Clean` of a rooted path is rooted |
| Paths.CleanKeepsRootedness | tool/planet/etcd.go:351 | `path.Clean` never returns the empty path, and its result is rooted exactly when its input is |
| Paths.CleanIdempotentRooted | tool/planet/etcd.go:351 | cleaning a rooted path a second time changes nothing |
| Paths.CleanRender | tool/planet/etcd.go:351 | a rooted path of plain segments is already clean |
| Paths.JoinPath | tool/planet/etcd.go:317-326 | `path.Join` onto a rooted directory gives a rooted path |
| Paths.JoinRender | tool/planet/etcd.go:351 | joining a plain element onto such a directory appends exactly that segment |
| Paths.JoinRenderEmpty | tool/planet/etcd.go:351 | joining the empty element gives the directory back |
| Paths.RenderDistinct | tool/planet/etcd.go:317-326 | different lists of plain segments give different paths |
| Paths.WithinRender | tool/planet/etcd.go:318-327 | one path of plain segments lies within another, as `os.RemoveAll` reaches it, only when the other's segments begin its own |
| Layout.BaseDirRendered | tool/planet/etcd.go:348-354 | `BaseDir` models `getBaseEtcdDir`. The store directory of a plain version is the path of its segments: the base segments for the sentinel, with the version appended for any other |
| Layout.BaseDirShape | tool/planet/etcd.go:348-354 | the sentinel's store directory is `/ext/etcd`; any other plain version's is `/ext/etcd/<version>` |
| Layout.MemberDirRendered | tool/planet/etcd.go:317-326 | the data directory a run wipes is `member` below the version's store directory, as one more path segment |
| Layout.MemberDirBelowStore | tool/planet/etcd.go:317-326 | the data directory of a plain version is its store directory followed by `/member` |
| Layout.LegacyMemberDirIsSentinels | tool/planet/etcd.go:118 | the legacy data directory init probes is the sentinel version's `member` directory |
| Layout.DistinctVersionsDistinctDirs | tool/planet/etcd.go:348-354 | distinct plain versions own distinct store directories and distinct `member` directories |
| Layout.MemberDirsNotNested | tool/planet/etcd.go:317-327 | as paths, the data directory of one plain version never lies within another plain version's, unless the first is labelled `member` |
| Layout.MemberLabelNestsInSentinel | tool/planet/etcd.go:317-327 | a version labelled `member` keeps its data inside the sentinel version's data directory, so removing the sentinel's data removes it too |
| Layout.MemberDirOutsideLatest | tool/planet/etcd.go:149-176 | the data directory path of a plain version not labelled `latest` does not pass through the `/ext/etcd/latest` link |
| Layout.LatestLabelRunsThroughLink | tool/planet/etcd.go:149-176 | the data directory path of a version labelled `latest` is `/ext/etcd/latest/member`, below the link |
| Layout.EmptyVersionSharesSentinelDir | tool/planet/etcd.go:350-351 | because `path.Join` cleans its result, the empty label resolves to the sentinel's directory |
| Layout.LatestDirShape | tool/planet/etcd.go:149 | the data link is `/ext/etcd/latest`, one segment below the base directory |
| Layout.BinaryTarget | tool/planet/etcd.go:132-138 | a binary link target is the binary path, a dash, then the version, and both parts can be read back from it |
| Layout.DistinctVersionsDistinctBinaries | tool/planet/etcd.go:132-138 | distinct versions get distinct binary targets |
| Environment.UpsertAll | tool/planet/etcd.go:56-58 | after upserting, the keys are the old keys plus the new ones; new keys take their new values and every other key keeps its old value |
| UpgradeFlow.BusyUnit | tool/planet/etcd.go:264-275 | no unit is reported busy exactly when every queried unit is inactive or failed; otherwise the first such unit is named together with its state |
| UpgradeFlow.Upgrade | tool/planet/etcd.go:248-346 | an unreadable environment ends the run with that error and no effects. A proxy node (proxy `on`) is left alone without error. Otherwise a busy store unit ends the run with no effects and the unit-busy error; then a failed read of the release file, or of a record file that exists, ends it with no effects and that read's own error. A run that gets going succeeds exactly when the API server's status can be queried, and otherwise reports that query's failure |
| UpgradeFlow.BusyUnitBlocks | tool/planet/etcd.go:271-274 | a store unit that is neither inactive nor failed stops the run before any effect, with a bad-parameter error naming the unit |
| UpgradeFlow.FailedQueryIsSkipped | tool/planet/etcd.go:266-270 | a store unit whose status cannot be queried is treated as if it were inactive |
| UpgradeFlow.Transition | tool/planet/etcd.go:297-331 | rollback only re-records the backup as current, and does so exactly when there is a backup. Upgrade writes a record exactly when the recorded version differs from the desired one, recording the desired version with the old current one as backup, and always ends by wiping the desired version's data. Neither restarts anything |
| UpgradeFlow.Wipe | tool/planet/etcd.go:318-327 | `os.RemoveAll(dir)`, for a `dir` with no link on the way, leaves exactly the directories that are neither `dir` nor below it |
| UpgradeFlow.Perform | tool/planet/etcd.go:300-327 | a record write changes only the record file. A removal changes only the data directories: it drops exactly those within the removed path, once `Resolve` has followed that path through the `latest` link when the link lies on the way. A restart changes nothing |
| UpgradeFlow.Apply | tool/planet/etcd.go:297-341 | carrying out effects never changes the environment, the unit states, the release file or the `latest` link, never creates a data directory, and leaves the record alone unless one of them writes it |
| UpgradeFlow.RunIsTransition | tool/planet/etcd.go:297-341 | once a run gets going, the API server restart changes nothing, and the node ends as the record and wipe transition leaves it |
| UpgradeFlow.UpgradeTransition | tool/planet/etcd.go:305-331 | the upgrade transition records the desired version with the old current one as backup, unless they already agree. It removes the old backup's data when that backup is displaced and always removes the desired version's data, each with everything below it and each through the `latest` link when its path runs through it. It touches nothing else |
| UpgradeFlow.RollbackTransition | tool/planet/etcd.go:297-304 | the rollback transition re-records the backup as current with no backup, and wipes nothing; without a backup it changes nothing |
| UpgradeFlow.UpgradeStep | tool/planet/etcd.go:305-331 | the same facts as UpgradeTransition, stated for a whole upgrade run on a node with well-formed files |
| UpgradeFlow.RollbackStep | tool/planet/etcd.go:297-304 | on a node with well-formed files, a whole rollback run makes the backup current with no backup, and leaves the data directories and the environment alone |
| UpgradeFlow.RestartsChangeNothing | tool/planet/etcd.go:339-341 | restarts leave the record, the data directories and the environment unchanged |
| UpgradeFlow.RunIsIdempotent | tool/planet/etcd.go:277-331 | re-entrancy: repeating an upgrade run, or a rollback run, on the node it produced changes nothing more |
| UpgradeFlow.UpgradeIsIdempotent | tool/planet/etcd.go:305-331 | the upgrade half of RunIsIdempotent |
| UpgradeFlow.RollbackIsIdempotent | tool/planet/etcd.go:297-304 | the rollback half of RunIsIdempotent |
| UpgradeFlow.UpgradeThenRollback | tool/planet/etcd.go:297-323 | rolling back after an upgrade away from version c makes c current again, with no backup, and wipes nothing more |
| UpgradeFlow.RollbackUpgradeRollback | tool/planet/etcd.go:297-323 | rollback, then upgrade, then rollback leaves the same effective record as the first rollback |
| UpgradeFlow.RunKeepsRecordCoherent | tool/planet/etcd.go:297-311 | on a node with well-formed files, if the record never names the same version as both current and backup, upgrade and rollback keep it that way |
| UpgradeFlow.UpgradeKeepsRollbackData | tool/planet/etcd.go:305-330 | on a node with well-formed files, an upgrade never removes the data of the version it leaves recorded as the backup. Its removals reach whole subtrees and follow the `latest` link. Labels must be plain and other than `member` and `latest` |
| UpgradeFlow.KeptOutsideWiped | tool/planet/etcd.go:314-327 | wherever the `latest` link points, the data of the version kept as backup lies outside both directories an upgrade removes |
| UpgradeFlow.ResolveAvoidsLink | tool/planet/etcd.go:317-327 | a removal of the data directory of a plain version not labelled `latest` reaches that very path, wherever the link points |
| UpgradeFlow.ResolveBelowLink | tool/planet/etcd.go:318-327 | a removal of a path below the `latest` link reaches the same path below the link's target |
| UpgradeFlow.LatestLabelReachesLinkedData | tool/planet/etcd.go:317-327 | removing the data directory of a version labelled `latest` removes the data of the version the link points at |
| UpgradeFlow.LatestLabelLosesBackup | tool/planet/etcd.go:305-331 | on a node with well-formed files, an upgrade to a version labelled `latest` records the current version as the backup and removes its data, when the link points at that version's store |
| InitFlow.Init | tool/planet/etcd.go:103-179 | init succeeds only when the release file reads. A recorded version is used as it is. With no record file, init runs the sentinel without writing when legacy data exists; otherwise it writes a record holding the desired version with no backup. No other case writes. On success the links are those for the chosen version. A failed release read fails init with that read's own error. So does a failed read of a record file that exists, and no other case fails |
| InitFlow.NewInstall | tool/planet/etcd.go:117-127 | with no record and no legacy data, init runs and records the desired version. For a desired version with no newline and no trailing carriage return, that record reads back as the desired version with no backup |
| InitFlow.LegacyInstall | tool/planet/etcd.go:110-151 | with no record but with legacy data, init runs the sentinel version and links `/ext/etcd/latest` to `/ext/etcd` |
| InitFlow.InitSettles | tool/planet/etcd.go:110-128 | for a desired version with no newline and no trailing carriage return, running init again after it wrote its record chooses the same version and writes nothing |
| InitFlow.LinksFor | tool/planet/etcd.go:131-174 | init links `/usr/bin/etcd` and `/usr/bin/etcdctl` to `<binary>-<version>`, then links the `latest` data link to the version's store directory |
| InitFlow.LinksTellVersionsApart | tool/planet/etcd.go:131-138 | distinct versions get distinct targets for both binary links |
| Promotion.Promote | tool/planet/etcd.go:37-99 | an unreadable environment is an error and only that is. Promotion takes no action exactly when proxy mode is already `off`, and then keeps the environment. Otherwise it adds the four membership keys with the given values, keeps every other key, and first saves that environment |
| Promotion.PromoteSettles | tool/planet/etcd.go:43-46 | a second promotion, with any arguments, takes no action |
| Promotion.StopBeforeRemoveBeforeStart | tool/planet/etcd.go:64-90 | the proxy directory is removed once only, after the store is stopped and before it is started again |
| Lifecycle.InitAfterUpgrade | tool/planet/etcd.go:305-312 | on a node with well-formed files, after an upgrade run that got going, init picks the desired version |
| Lifecycle.InitAfterRollback | tool/planet/etcd.go:297-304 | on a node with well-formed files, after a rollback run that found a backup, init picks that backup |
| Lifecycle.PromotionEnablesUpgrade | tool/planet/etcd.go:258-261 | after a successful promotion the upgrade flow no longer treats the node as a proxy |

## Behaviour of the code worth noting

- **Unit gate.** A store unit whose status cannot be queried is skipped with a
  warning, and the run continues (lines 266-270). See
  `UpgradeFlow.FailedQueryIsSkipped`.
- **API server status failure.** The status query comes after the record has
  been changed and the data wiped, and its error is returned (lines 335-338).
  The model records this as a `Run` that has effects and also a failure.
- **Restart condition.** The comment at lines 333-334 says the restart happens
  only if the service is already running. The test at line 339 is
  `!= "inactive"`, so a `failed` API server is restarted too, and the model
  follows the test.
- **New version's directory.** Upgrade only removes the desired version's
  `member` directory (line 326). Init creates the store directory (line 152).
- **Re-entrancy.** The comment at lines 277-279 asks that a repeated run skip
  what an earlier run did. Repeating a run on the node it produced changes
  nothing (`UpgradeFlow.RunIsIdempotent`). Rollback, upgrade, rollback ends with
  an equal *effective* record rather than an equal file: when the record file
  was missing, the first rollback writes nothing, and a missing file reads as
  the sentinel (`UpgradeFlow.RollbackUpgradeRollback`).
- **Proxy checks are asymmetric.** Upgrade skips only when proxy mode is `on`
  (line 258). Promotion skips only when it is `off` (line 43). Any other value
  lets both proceed.
- **Legacy-data probe.** Init treats the legacy data directory as present unless
  `os.Stat` reports that it does not exist (line 118). The model's `legacyData`
  flag means exactly that.
- **The `latest` link.** Init points `/ext/etcd/latest` at the running version's
  store (lines 149-176). A removal whose path runs through that link removes
  the directory the link points at. A version labelled `latest` therefore has
  its data directory path pass through the link
  (`UpgradeFlow.LatestLabelLosesBackup`).

## Left out

- Constants: the key names, the sentinel `v2.3.8`, the store paths and the unit
  names come from the repository's constants file, which is not part of this
  model. The proofs rely only on the keys being distinct and free of `=` and
  newlines, and on the sentinel being a plain path segment.
- Service manager: systemctl and D-Bus calls (`getServiceStatus`,
  `tryResetService`, `disableService`, `enableService`) are not modelled. Unit
  states are an input map, and restarts and systemctl invocations are recorded
  effects.
- `etcdEnable`, `etcdDisable` and `waitForEtcdStopped`: these are service control
  and process-table polling with timeouts, outside the pure decision logic.
- `etcdBackup` and `etcdRestore`: these submit jobs to an external backup engine.
- Failing effects: a failed record write, directory removal, symlink, `MkdirAll`,
  `chown` or promotion command is not modelled. The flows are modelled as if
  every effect succeeds, except for the read and status failures listed above.
- Filesystem details: directory permissions, ownership copying and the removal
  of old links are not modelled. Init returns the links it creates.
- `setupEtcd` is recorded as a `SetupLinks` action. Its own logic is in another
  file.
- The node environment file's on-disk format: it is read and written through a
  library outside this file. The environment is a map, or nothing when it cannot
  be read; that read failure is one `EnvironmentUnreadable` error kind.
- The scanner's 64 KiB token limit: its error is never checked in the code, and
  the model scans unbounded lines.
- Error wrapping and `trace.ConvertSystemError`: OS errors are collapsed into
  one `SystemFailure` kind.
- UpgradeFlow.RunIsIdempotent: proved for nodes with well-formed files (`WellFormed`).
  In such a file, no value read back ends in a carriage return or holds a
  newline. A value that does would not survive being rewritten, because the
  scanner strips one trailing carriage return per line.
- UpgradeFlow.UpgradeThenRollback: assumes well-formed files, for the same reason.
- UpgradeFlow.RollbackUpgradeRollback: assumes well-formed files, for the same reason.
- UpgradeFlow.RollbackStep: assumes well-formed files. A backup ending in a carriage
  return is re-recorded and reads back without it.
- UpgradeFlow.RunKeepsRecordCoherent: assumes well-formed files. A desired version
  `v` followed by a carriage return, upgraded from the record (`v`, no backup),
  is written as current with backup `v`. It then reads back as `v` with backup `v`.
- UpgradeFlow.UpgradeKeepsRollbackData: assumes well-formed files. A current
  version `x` followed by a carriage return, upgraded to `x`, reads back with
  backup `x`, while the same run removes the data of `x`.
- UpgradeFlow.LatestLabelLosesBackup: assumes well-formed files, so that the
  record it describes reads back as written.
- InitFlow.InitSettles: assumes the desired version holds no newline and does not
  end in a carriage return, because such a version reads back changed.
- Lifecycle.InitAfterUpgrade: assumes well-formed files, for the same reason.
- Lifecycle.InitAfterRollback: assumes well-formed files, for the same reason.
- UpgradeFlow.UpgradeKeepsRollbackData: stated for plain version labels only, and
  not for a current or backup version labelled `member`. A label holding `/`, `.`
  or `..` can make `path.Join` map two versions to the same directory. The data
  of a version labelled `member` lies inside the sentinel version's data
  directory, which `os.RemoveAll` deletes as a whole (`Layout.MemberLabelNestsInSentinel`).
- UpgradeFlow.UpgradeKeepsRollbackData: nor for a desired, current or backup
  version labelled `latest`. That label's data directory path runs through the
  `latest` link, so its removal can reach another version's data
  (`UpgradeFlow.LatestLabelLosesBackup`).
- UpgradeFlow.KeptOutsideWiped: the same label restrictions, for the same reasons.
- Links other than `/ext/etcd/latest` are not modelled. The data directories are
  kept as paths without links, and the link's target is not itself followed
  further.
- Layout.DistinctVersionsDistinctDirs: stated for plain version labels only, for
  the same reason.

=== FILE: environment.dfy ===
/**
 * The node environment (the container-environment file) as an abstract key→value
 * map: reading a key that is not set yields "", and an upsert replaces existing
 * keys and adds new ones.
 */
module Environment {

  /** `Environment.Get`: the value of `key`, or "" when it is not set. */
  function Get(env: map<string, string>, key: string): (value: string)
    ensures key !in env ==> value == ""
    ensures key in env ==> value == env[key]
  {
    if key in env then env[key] else ""
  }

  /** `Environment.Upsert` applied for each entry of `updates`. */
  function UpsertAll(env: map<string, string>, updates: map<string, string>): (r: map<string, string>)
    ensures r.Keys == env.Keys + updates.Keys
    ensures forall k :: k in updates ==> r[k] == updates[k]
    ensures forall k :: k in env && k !in updates ==> r[k] == env[k]
  {
    env + updates
  }
}

=== FILE: errors.dfy ===
/** The error kinds the lifecycle tool reports, and what a file read can observe. */
module Errors {

  /**
   * `trace.NotFound`, a wrapped OS error, and the two `trace.BadParameter` cases
   * (an unparsable version record, a unit that is still running); a failed unit
   * status query carries the unit's name, and a node environment that cannot be
   * read is reported as such.
   */
  datatype Error =
    | NotFound
    | SystemFailure
    | Malformed
    | UnitBusy(unit: string, state: string)
    | StatusUnavailable(unit: string)
    | EnvironmentUnreadable
  {
    predicate IsBadParameter() {
      Malformed? || UnitBusy?
    }
  }

  /** What opening and reading a file yields: no file, an OS error, or its text. */
  datatype FileState = Missing | Unreadable | Content(text: string)
}

=== FILE: init.dfy ===
/**
 * `etcdInit`: decides which version the node runs. The recorded current version
 * wins; without a record, an existing legacy data directory means the sentinel
 * version, and otherwise the node is a new installation that records the desired
 * version. The binaries and the "latest" data link are then pointed at the
 * chosen version.
 */
module InitFlow {
  import opened Wrappers
  import opened Text
  import opened Paths
  import opened Names
  import opened Errors
  import opened Registry
  import opened Layout

  /** A symlink `name` pointing at `target`. */
  datatype Link = Link(target: string, name: string)

  /** The chosen version, the record written for a new installation, and the links to (re)create. */
  datatype Setup = Setup(current: string, written: Option<Record>, links: seq<Link>)

  /**
   * The links init creates for `version`, in order: each binary to its
   * version-suffixed executable, then the "latest" data link to the version's
   * store directory.
   */
  function LinksFor(version: string): (links: seq<Link>)
    ensures |links| == 3
    ensures links[0].name == EtcdBinary && links[1].name == EtcdctlBinary && links[2].name == LatestDir()
    ensures links[0].target == EtcdBinary + "-" + version && links[1].target == EtcdctlBinary + "-" + version
    ensures links[2].target == BaseDir(version)
  {
    [ Link(BinaryTarget(EtcdBinary, version), EtcdBinary),
      Link(BinaryTarget(EtcdctlBinary, version), EtcdctlBinary),
      Link(BaseDir(version), LatestDir()) ]
  }

  function Choose(version: string, written: Option<Record>): Setup
  {
    Setup(version, written, LinksFor(version))
  }

  /**
   * One run of `etcdInit`, given the release file, the record file and whether
   * the legacy data directory exists.
   */
  function Init(release: FileState, record: FileState, legacyData: bool): (r: Result<Setup, Error>)
    ensures r.Success? ==> ReadVersion(release).Success?
    ensures r.Success? ==> r.value.links == LinksFor(r.value.current)
    ensures r.Success? && r.value.written.None? ==>
      Recorded(record).Success? && r.value.current == Recorded(record).value.current
    ensures r.Success? && r.value.written.Some? ==>
      record.Missing? && !legacyData && r.value.written.value == Record(r.value.current, "")
      && r.value.current == ReadVersion(release).value.current
    ensures r.Failure? ==> ReadVersion(release).Failure? || (!record.Missing? && ReadVersion(record).Failure?)
    ensures r.Success? && record.Missing? && !legacyData ==>
      r.value.written == Some(Record(r.value.current, "")) && r.value.current == ReadVersion(release).value.current
    ensures r.Success? && record.Missing? && legacyData ==>
      r.value.written.None? && r.value.current == AssumedVersion
    ensures ReadVersion(release).Failure? ==> r == Failure(ReadVersion(release).error)
    ensures ReadVersion(release).Success? && !record.Missing? && ReadVersion(record).Failure? ==>
      r == Failure(ReadVersion(record).error)
  {
    var wanted :- ReadVersion(release);
    match ReadVersion(record)
    case Success(rec) => Success(Choose(rec.current, None))
    case Failure(NotFound) =>
      if legacyData then Success(Choose(AssumedVersion, None))
      else Success(Choose(wanted.current, Some(Record(wanted.current, ""))))
    case Failure(e) => Failure(e)
  }

  /** The record file after init has written its written record, if any. */
  function RecordAfter(record: FileState, setup: Setup): FileState
  {
    match setup.written
    case None => record
    case Some(r) => Content(RecordText(r.current, r.previous))
  }

  /** A new installation runs, and records, the desired version; reading the record back gives it. */
  lemma {:induction false} NewInstall(release: FileState)
    requires ReadVersion(release).Success? && LineSafe(ReadVersion(release).value.current)
    ensures var d := ReadVersion(release).value.current;
      && Init(release, Missing, false) == Success(Choose(d, Some(Record(d, ""))))
      && ReadVersion(RecordAfter(Missing, Init(release, Missing, false).value)) == Success(Record(d, ""))
  {
    var d := ReadVersion(release).value.current;
    RoundTrip(d, "");
  }

  /** Without a record but with legacy data, init runs the sentinel version from the base directory. */
  lemma {:induction false} LegacyInstall(release: FileState)
    requires ReadVersion(release).Success?
    ensures Init(release, Missing, true) == Success(Choose(AssumedVersion, None))
    ensures LinksFor(AssumedVersion)[2] == Link(StoreBase, StoreBase + "/latest")
  {
    assert Plain(AssumedVersion);
    BaseDirShape(AssumedVersion);
    assert BaseDir(AssumedVersion) == StoreBase;
    LatestDirShape();
  }

  /** Running init again after it has written its record changes nothing. */
  lemma {:induction false} InitSettles(release: FileState, record: FileState, legacyData: bool)
    requires Init(release, record, legacyData).Success?
    requires ReadVersion(release).Success? ==> LineSafe(ReadVersion(release).value.current)
    ensures var s1 := Init(release, record, legacyData).value;
      var record' := RecordAfter(record, s1);
      Init(release, record', legacyData) == Success(Choose(s1.current, None))
  {
    var s1 := Init(release, record, legacyData).value;
    if s1.written.Some? {
      RoundTrip(s1.current, "");
    }
  }

  /** Distinct chosen versions get distinct binary targets. */
  lemma {:induction false} LinksTellVersionsApart(v1: string, v2: string)
    requires v1 != v2
    ensures LinksFor(v1)[0] != LinksFor(v2)[0] && LinksFor(v1)[1] != LinksFor(v2)[1]
  {
    DistinctVersionsDistinctBinaries(EtcdBinary, v1, v2);
    DistinctVersionsDistinctBinaries(EtcdctlBinary, v1, v2);
  }
}

=== FILE: layout.dfy ===
/**
 * Where each version lives on disk: `getBaseEtcdDir` maps the sentinel version to
 * the base store directory itself and every other version to a subdirectory named
 * after it; the data a run wipes is the `member` directory below that, and the
 * binaries are symlinked to version-suffixed executables.
 */
module Layout {
  import opened Text
  import opened Paths
  import opened Names

  /** The segments of the store's base directory. */
  const BaseSegments: seq<string> := ["ext", "etcd"]

  lemma StoreBaseRendered()
    ensures AllPlain(BaseSegments)
    ensures Render(BaseSegments) == StoreBase
  {
    assert BaseSegments[..1] == ["ext"];
  }

  /** The segments of the directory holding `version`'s data, for plain version labels. */
  function VersionSegments(version: string): seq<string>
  {
    if version == AssumedVersion then BaseSegments else BaseSegments + [version]
  }

  /** `getBaseEtcdDir`: the store directory of `version`. */
  function BaseDir(version: string): string
  {
    if version == AssumedVersion then StoreBase else JoinPath(StoreBase, version)
  }

  /** The directory below a version's store directory that holds its data. */
  const DataSegment := "member"

  /** The data directory of `version`, the one upgrade runs wipe. */
  function MemberDir(version: string): string
  {
    JoinPath(BaseDir(version), DataSegment)
  }

  /** The store directory of a plain version is the path of its segments. */
  lemma {:induction false} BaseDirRendered(version: string)
    requires Plain(version)
    ensures BaseDir(version) == Render(VersionSegments(version))
  {
    StoreBaseRendered();
    if version != AssumedVersion {
      JoinRender(BaseSegments, version);
    }
  }

  /** The data directory of a plain version is its store directory's path with one more segment. */
  lemma {:induction false} MemberDirRendered(version: string)
    requires Plain(version)
    ensures MemberDir(version) == Render(VersionSegments(version) + [DataSegment])
  {
    StoreBaseRendered();
    BaseDirRendered(version);
    JoinRender(VersionSegments(version), DataSegment);
  }

  /** The name of the link, in the store's base directory, to the running version's store. */
  const LatestSegment := "latest"

  /** The "latest" symlink through which the running store finds its data. */
  function LatestDir(): string
  {
    JoinPath(StoreBase, LatestSegment)
  }

  /** The "latest" link sits directly in the store's base directory. */
  lemma LatestDirShape()
    ensures LatestDir() == StoreBase + "/latest"
    ensures AllPlain(BaseSegments + [LatestSegment]) && LatestDir() == Render(BaseSegments + [LatestSegment])
  {
    StoreBaseRendered();
    JoinRender(BaseSegments, LatestSegment);
    assert (BaseSegments + [LatestSegment])[..2] == BaseSegments;
    AllPlainSnoc(BaseSegments, LatestSegment);
  }

  /** The version-suffixed executable a binary symlink points to (`fmt.Sprint(path, "-", version)`). */
  function BinaryTarget(path: string, version: string): (target: string)
    ensures |target| == |path| + 1 + |version|
    ensures target[..|path|] == path && target[|path|] == '-' && target[|path| + 1..] == version
  {
    path + "-" + version
  }

  /** The sentinel version's store is the base directory, other plain versions a subdirectory of it. */
  lemma {:induction false} BaseDirShape(version: string)
    requires Plain(version)
    ensures version == AssumedVersion ==> BaseDir(version) == StoreBase
    ensures version != AssumedVersion ==> BaseDir(version) == StoreBase + "/" + version
  {
    StoreBaseRendered();
    BaseDirRendered(version);
    if version != AssumedVersion {
      var segs := BaseSegments + [version];
      assert segs[..|segs| - 1] == BaseSegments;
    }
  }

  /** The legacy data directory probed by init is the sentinel version's member directory. */
  lemma LegacyMemberDirIsSentinels()
    ensures MemberDir(AssumedVersion) == LegacyMemberDir
  {
    assert Plain(AssumedVersion);
    StoreBaseRendered();
    MemberDirRendered(AssumedVersion);
    var segs := BaseSegments + [DataSegment];
    assert segs[..|segs| - 1] == BaseSegments;
  }

  /** Plain versions are told apart by their directory segments. */
  lemma {:induction false} VersionSegmentsInjective(v1: string, v2: string)
    requires Plain(v1) && Plain(v2)
    requires v1 != v2
    ensures AllPlain(VersionSegments(v1)) && AllPlain(VersionSegments(v2))
    ensures VersionSegments(v1) != VersionSegments(v2)
    ensures VersionSegments(v1) + [DataSegment] != VersionSegments(v2) + [DataSegment]
  {
    StoreBaseRendered();
    var s1 := VersionSegments(v1);
    var s2 := VersionSegments(v2);
    if v1 != AssumedVersion && v2 != AssumedVersion {
      assert s1[2] == v1 && s2[2] == v2;
      assert (s1 + [DataSegment])[2] == v1 && (s2 + [DataSegment])[2] == v2;
    } else {
      assert |s1| != |s2|;
      assert |s1 + [DataSegment]| != |s2 + [DataSegment]|;
    }
  }

  /** Distinct plain versions own distinct store and member directories. */
  lemma {:induction false} DistinctVersionsDistinctDirs(v1: string, v2: string)
    requires Plain(v1) && Plain(v2)
    requires v1 != v2
    ensures BaseDir(v1) != BaseDir(v2)
    ensures MemberDir(v1) != MemberDir(v2)
  {
    DistinctStoreDirs(v1, v2);
    DistinctDataDirs(v1, v2);
  }

  lemma {:induction false} DistinctStoreDirs(v1: string, v2: string)
    requires Plain(v1) && Plain(v2)
    requires v1 != v2
    ensures BaseDir(v1) != BaseDir(v2)
  {
    VersionSegmentsInjective(v1, v2);
    BaseDirRendered(v1);
    BaseDirRendered(v2);
    RenderDistinct(VersionSegments(v1), VersionSegments(v2));
  }

  lemma {:induction false} DistinctDataDirs(v1: string, v2: string)
    requires Plain(v1) && Plain(v2)
    requires v1 != v2
    ensures MemberDir(v1) != MemberDir(v2)
  {
    VersionSegmentsInjective(v1, v2);
    MemberDirRendered(v1);
    MemberDirRendered(v2);
    AllPlainSnoc(VersionSegments(v1), DataSegment);
    AllPlainSnoc(VersionSegments(v2), DataSegment);
    RenderDistinct(VersionSegments(v1) + [DataSegment], VersionSegments(v2) + [DataSegment]);
  }

  /**
   * Removing one plain version's data directory, subtree and all, leaves another's
   * alone, unless that other version is labelled like the data directory itself.
   */
  lemma {:induction false} MemberDirsNotNested(kept: string, wiped: string)
    requires Plain(kept) && Plain(wiped)
    requires kept != wiped
    requires kept != DataSegment
    ensures !Within(MemberDir(kept), MemberDir(wiped))
  {
    MemberDirRendered(kept);
    MemberDirRendered(wiped);
    var sk := VersionSegments(kept) + [DataSegment];
    var sw := VersionSegments(wiped) + [DataSegment];
    DataSegmentsNotNested(kept, wiped);
    if Within(Render(sk), Render(sw)) {
      WithinRender(sw, sk);
    }
  }

  /** The data directory segments of one such version never begin those of another. */
  lemma {:induction false} DataSegmentsNotNested(kept: string, wiped: string)
    requires Plain(kept) && Plain(wiped)
    requires kept != wiped
    requires kept != DataSegment
    ensures var sk := VersionSegments(kept) + [DataSegment];
      var sw := VersionSegments(wiped) + [DataSegment];
      && AllPlain(sk) && AllPlain(sw) && |sw| > 0
      && !(|sw| <= |sk| && sk[..|sw|] == sw)
  {
    VersionSegmentsInjective(kept, wiped);
    var sk := VersionSegments(kept) + [DataSegment];
    var sw := VersionSegments(wiped) + [DataSegment];
    assert AllPlain(sk) && AllPlain(sw);
    assert sk[..|sk|] == sk;
    assert kept != AssumedVersion ==> sk[2] == kept;
    assert wiped == AssumedVersion ==> sw[2] == DataSegment;
  }

  /** A version labelled `member` keeps its data inside the sentinel version's data directory. */
  lemma MemberLabelNestsInSentinel()
    ensures Within(MemberDir(DataSegment), MemberDir(AssumedVersion))
  {
    assert Plain(AssumedVersion) && Plain(DataSegment);
    MemberDirRendered(AssumedVersion);
    MemberDirRendered(DataSegment);
    var sw := BaseSegments + [DataSegment];
    var sk := BaseSegments + [DataSegment, DataSegment];
    assert VersionSegments(DataSegment) + [DataSegment] == sk;
    assert sk[..|sk| - 1] == sw;
    assert Render(sk) == Render(sw) + "/" + DataSegment;
  }

  /** A plain version's data directory is the `member` entry of its store directory. */
  lemma {:induction false} MemberDirBelowStore(version: string)
    requires Plain(version)
    ensures MemberDir(version) == BaseDir(version) + "/" + DataSegment
  {
    BaseDirRendered(version);
    MemberDirRendered(version);
    RenderSnoc(VersionSegments(version), DataSegment);
  }

  /**
   * The data directory path of a plain version other than `latest` does not run
   * through the "latest" link.
   */
  lemma {:induction false} MemberDirOutsideLatest(version: string)
    requires Plain(version)
    requires version != LatestSegment
    ensures !Within(MemberDir(version), LatestDir())
  {
    LatestDirShape();
    MemberDirRendered(version);
    VersionSegmentsInjective(version, LatestSegment);
    var sk := VersionSegments(version) + [DataSegment];
    var sl := BaseSegments + [LatestSegment];
    AllPlainSnoc(VersionSegments(version), DataSegment);
    assert version != AssumedVersion ==> sk[2] == version;
    assert version == AssumedVersion ==> sk[2] == DataSegment;
    assert sl[2] == LatestSegment;
    if Within(Render(sk), Render(sl)) {
      WithinRender(sl, sk);
    }
  }

  /** The data directory path of a version labelled `latest` runs through the "latest" link. */
  lemma LatestLabelRunsThroughLink()
    ensures MemberDir(LatestSegment) == LatestDir() + "/" + DataSegment
  {
    assert Plain(LatestSegment);
    BaseDirShape(LatestSegment);
    LatestDirShape();
    MemberDirBelowStore(LatestSegment);
  }

  /** `path.Join` cleans its result, so the empty label resolves to the sentinel's directory. */
  lemma EmptyVersionSharesSentinelDir()
    ensures BaseDir("") == BaseDir(AssumedVersion)
  {
    StoreBaseRendered();
    JoinRenderEmpty(BaseSegments);
  }

  /** Binary targets of distinct versions differ. */
  lemma {:induction false} DistinctVersionsDistinctBinaries(path: string, v1: string, v2: string)
    requires v1 != v2
    ensures BinaryTarget(path, v1) != BinaryTarget(path, v2)
  {
  }
}

=== FILE: lifecycle.dfy ===
/** How the init, upgrade and promotion flows fit together on one node. */
module Lifecycle {
  import opened Wrappers
  import opened Names
  import opened Errors
  import opened Environment
  import opened Registry
  import opened UpgradeFlow
  import opened InitFlow
  import opened Promotion

  /** After an upgrade run that got going, init points the node at the desired version. */
  lemma {:induction false} InitAfterUpgrade(node: Node, legacyData: bool)
    requires WellFormed(node) && Proceeds(node)
    ensures var n1 := After(node, Upgrade(false, node));
      && Init(n1.release, n1.record, legacyData).Success?
      && Init(n1.release, n1.record, legacyData).value.current == Desired(node)
  {
    var n1 := After(node, Upgrade(false, node));
    UpgradeStep(node);
    var c := Current(node);
    if c.current == Desired(node) && node.record.Missing? {
      assert n1.record == node.record by {
        CurrentStorable(node);
        RunIsTransition(false, node);
        UpgradeTransition(node, Desired(node), c);
      }
    }
  }

  /** After a rollback run that found a backup, init points the node at that backup. */
  lemma {:induction false} InitAfterRollback(node: Node, legacyData: bool)
    requires WellFormed(node) && Proceeds(node)
    requires Current(node).previous != ""
    ensures var n1 := After(node, Upgrade(true, node));
      && Init(n1.release, n1.record, legacyData).Success?
      && Init(n1.release, n1.record, legacyData).value.current == Current(node).previous
  {
    var n1 := After(node, Upgrade(true, node));
    var b := Current(node).previous;
    CurrentStorable(node);
    RunIsTransition(true, node);
    RollbackTransition(node, Desired(node), Current(node));
    assert n1.record == Content(RecordText(b, ""));
    assert ReadVersion(n1.record) == Success(Record(b, ""));
    assert Init(n1.release, n1.record, legacyData) == Success(Choose(b, None));
  }

  /** A promoted node is no longer treated as a proxy by the upgrade flow. */
  lemma {:induction false} PromotionEnablesUpgrade(node: Node, name: string, initialCluster: string,
                                                    initialClusterState: string)
    ensures var r := Promote(node.env, name, initialCluster, initialClusterState);
      r.Success? ==> !ProxyMode(node.(env := Some(r.value.env)))
  {
    var r := Promote(node.env, name, initialCluster, initialClusterState);
    if r.Success? && Get(node.env.value, ProxyKey) != ProxyOff {
      assert Get(r.value.env, ProxyKey) == ProxyOff;
    }
  }
}

=== FILE: names.dfy ===
/**
 * Fixed names the lifecycle tool refers to: keys of the version-record file and
 * of the node environment, the sentinel version, directories and systemd units.
 * The source takes them from the repository's constants file, which is not part
 * of this model; the proofs rely only on the facts that the keys are distinct and
 * contain neither '=' nor a line break, and that the sentinel is a plain path segment.
 */
module Names {

  /** Record key of the version that should run (`EnvEtcdVersion`). */
  const VersionKey := "PLANET_ETCD_VERSION"
  /** Record key of the version an upgrade moved away from (`EnvEtcdPrevVersion`). */
  const PrevVersionKey := "PLANET_ETCD_PREV_VERSION"
  /** Record key of the storage-backend tag (`EnvStorageBackend`). */
  const BackendKey := "KUBE_STORAGE_BACKEND"

  /** The version assumed for installations that predate version tracking (`AssumeEtcdVersion`). */
  const AssumedVersion := "v2.3.8"
  /** Backend tag written for the sentinel version. */
  const LegacyBackend := "etcd2"
  /** Backend tag written for every other version. */
  const ModernBackend := "etcd3"

  /** Base directory of the store's data (`DefaultEtcdStoreBase`). */
  const StoreBase := "/ext/etcd"
  /** The data directory whose presence marks an existing legacy installation. */
  const LegacyMemberDir := "/ext/etcd/member"
  /** Data directory of a node running as a proxy (`ETCDProxyDir`). */
  const ProxyDir := "/ext/etcd/proxy"
  /** Binaries that are symlinked to a version-suffixed executable. */
  const EtcdBinary := "/usr/bin/etcd"
  const EtcdctlBinary := "/usr/bin/etcdctl"

  /** Node-environment keys and values. */
  const ProxyKey := "ETCD_PROXY"
  const ProxyOn := "on"
  const ProxyOff := "off"
  const MemberNameKey := "ETCD_MEMBER_NAME"
  const InitialClusterKey := "ETCD_INITIAL_CLUSTER"
  const InitialClusterStateKey := "ETCD_INITIAL_CLUSTER_STATE"

  /** systemd units. */
  const EtcdUnit := "etcd.service"
  const EtcdUpgradeUnit := "etcd-upgrade.service"
  const ApiServerUnit := "kube-apiserver.service"
  const AgentUnit := "planet-agent.service"

  /** Unit states in which the store is safe to upgrade. */
  const Inactive := "inactive"
  const Failed := "failed"
}

=== FILE: paths.dfy ===
/**
 * Go's `path.Clean` and `path.Join`, which the lifecycle tool uses to derive
 * every directory it creates, links to or wipes. Only the lexical rules matter:
 * repeated slashes collapse, `.` segments vanish, `..` removes the segment
 * before it (and is dropped at the root of a rooted path), and the empty
 * relative path becomes `.`.
 */
module Paths {
  import opened Text

  /** A path segment that `Clean` keeps as it is. */
  predicate Plain(seg: string)
  {
    seg != "" && seg != "." && seg != ".." && '/' !in seg
  }

  predicate AllPlain(segs: seq<string>)
  {
    forall i :: 0 <= i < |segs| ==> Plain(segs[i])
  }

  lemma {:induction false} AllPlainSnoc(segs: seq<string>, seg: string)
    requires AllPlain(segs) && Plain(seg)
    ensures AllPlain(segs + [seg])
  {
    assert forall i :: 0 <= i < |segs| ==> (segs + [seg])[i] == segs[i];
  }

  /** The rooted path whose segments are `segs`. */
  function Render(segs: seq<string>): string
  {
    "/" + Join(segs, '/')
  }

  /** One more segment adds a separator and that segment to the rendered path. */
  lemma {:induction false} RenderSnoc(segs: seq<string>, seg: string)
    requires |segs| > 0
    ensures Render(segs + [seg]) == Render(segs) + "/" + seg
  {
    var s := segs + [seg];
    assert s[..|s| - 1] == segs;
  }

  /** Applies one segment to the stack of kept segments. */
  function Step(rooted: bool, stack: seq<string>, seg: string): seq<string>
  {
    if seg == "" || seg == "." then stack
    else if seg == ".." then
      if |stack| > 0 && stack[|stack| - 1] != ".." then stack[..|stack| - 1]
      else if rooted then stack
      else stack + [".."]
    else stack + [seg]
  }

  /** Applies the segments left to right. */
  function Walk(rooted: bool, stack: seq<string>, segs: seq<string>): seq<string>
    decreases |segs|
  {
    if |segs| == 0 then stack else Walk(rooted, Step(rooted, stack, segs[0]), segs[1..])
  }

  /** The shortest lexically equivalent path, as `path.Clean` computes it. */
  function Clean(p: string): (r: string)
    ensures |p| > 0 && p[0] == '/' ==> |r| > 0 && r[0] == '/'
  {
    var rooted := |p| > 0 && p[0] == '/';
    var segs := Walk(rooted, [], Split(p, '/'));
    if rooted then Render(segs)
    else if segs == [] then "."
    else Join(segs, '/')
  }

  /** `path.Join(dir, elem)`: the non-empty elements joined by slashes, then cleaned. */
  function JoinPath(dir: string, elem: string): (r: string)
    ensures |dir| > 0 && dir[0] == '/' ==> |r| > 0 && r[0] == '/'
  {
    if dir == "" then (if elem == "" then "" else Clean(elem))
    else Clean(dir + "/" + elem)
  }

  /** `path` is `dir` itself or lies below it: what `os.RemoveAll(dir)` deletes. */
  predicate Within(path: string, dir: string)
  {
    path == dir || dir + "/" <= path
  }

  lemma {:induction false} WalkAppend(rooted: bool, stack: seq<string>, xs: seq<string>, ys: seq<string>)
    ensures Walk(rooted, stack, xs + ys) == Walk(rooted, Walk(rooted, stack, xs), ys)
    decreases |xs|
  {
    if |xs| > 0 {
      assert (xs + ys)[1..] == xs[1..] + ys;
      WalkAppend(rooted, Step(rooted, stack, xs[0]), xs[1..], ys);
    } else {
      assert xs + ys == ys;
    }
  }

  /** Plain segments are pushed unchanged. */
  lemma {:induction false} WalkPlain(rooted: bool, stack: seq<string>, segs: seq<string>)
    requires AllPlain(segs)
    ensures Walk(rooted, stack, segs) == stack + segs
    decreases |segs|
  {
    if |segs| > 0 {
      assert Plain(segs[0]);
      WalkPlain(rooted, stack + [segs[0]], segs[1..]);
      assert stack + [segs[0]] + segs[1..] == stack + segs;
    }
  }

  /** The segments of a rendered path, as `Split` sees them. */
  lemma {:induction false} SplitRender(segs: seq<string>)
    requires AllPlain(segs)
    ensures |segs| == 0 ==> Split(Render(segs), '/') == ["", ""]
    ensures |segs| > 0 ==> Split(Render(segs), '/') == [""] + segs
  {
    if |segs| == 0 {
      assert Render(segs) == [] + ['/'] + [];
      SplitAt([], [], '/');
    } else {
      assert Render(segs) == [] + ['/'] + Join(segs, '/');
      SplitAt([], Join(segs, '/'), '/');
      SplitJoin(segs, '/');
    }
  }

  /** The empty segments before a rooted path's first segment are dropped. */
  lemma {:induction false} LeadingEmpty(lead: seq<string>)
    requires lead == [""] || lead == ["", ""]
    ensures Walk(true, [], lead) == []
  {
    assert Walk(true, [], [""]) == [];
    assert ["", ""][1..] == [""];
  }

  /** A rooted path cleans to the rendering of the segments its walk keeps. */
  lemma CleanRooted(p: string, segs: seq<string>)
    requires |p| > 0 && p[0] == '/'
    requires Walk(true, [], Split(p, '/')) == segs
    ensures Clean(p) == Render(segs)
  {
  }

  /** A rendered path of plain segments is already clean. */
  lemma {:induction false} CleanRender(segs: seq<string>)
    requires AllPlain(segs)
    ensures Clean(Render(segs)) == Render(segs)
  {
    SplitRender(segs);
    var parts := Split(Render(segs), '/');
    assert Render(segs)[0] == '/';
    if |segs| == 0 {
      assert Walk(true, [], parts) == [];
    } else {
      assert parts == [""] + segs;
      assert Walk(true, [], [""]) == [];
      WalkAppend(true, [], [""], segs);
      WalkPlain(true, [], segs);
      assert [] + segs == segs;
      assert Walk(true, [], parts) == segs;
    }
  }

  /** Joining a plain element onto a clean rooted directory appends one segment. */
  lemma {:induction false} JoinRender(segs: seq<string>, elem: string)
    requires AllPlain(segs)
    requires Plain(elem)
    ensures JoinPath(Render(segs), elem) == Render(segs + [elem])
  {
    var p := Render(segs) + "/" + elem;
    var lead := SplitBelow(segs, elem);
    LeadingEmpty(lead);
    WalkAppend(true, [], lead, segs + [elem]);
    assert AllPlain(segs + [elem]);
    WalkPlain(true, [], segs + [elem]);
    assert [] + (segs + [elem]) == segs + [elem];
    assert p[0] == '/';
    CleanRooted(p, segs + [elem]);
  }

  /** The segments `Split` finds in a rendered directory followed by one more element. */
  lemma {:induction false} SplitBelow(segs: seq<string>, elem: string) returns (lead: seq<string>)
    requires AllPlain(segs)
    requires '/' !in elem
    ensures lead == [""] || lead == ["", ""]
    ensures Split(Render(segs) + "/" + elem, '/') == lead + (segs + [elem])
  {
    var p := Render(segs) + "/" + elem;
    assert p == Render(segs) + ['/'] + elem;
    SplitAt(Render(segs), elem, '/');
    SplitFree(elem, '/');
    SplitRender(segs);
    lead := if |segs| == 0 then ["", ""] else [""];
  }

  /** Joining the empty element onto a clean rooted directory gives the directory back. */
  lemma {:induction false} JoinRenderEmpty(segs: seq<string>)
    requires AllPlain(segs)
    ensures JoinPath(Render(segs), "") == Render(segs)
  {
    var p := Render(segs) + "/" + "";
    var lead := SplitBelow(segs, "");
    LeadingEmpty(lead);
    assert lead + (segs + [""]) == (lead + segs) + [""];
    WalkAppend(true, [], lead + segs, [""]);
    WalkAppend(true, [], lead, segs);
    WalkPlain(true, [], segs);
    assert [] + segs == segs;
    assert Walk(true, segs, [""]) == segs;
    assert p[0] == '/';
    CleanRooted(p, segs);
  }

  /** Distinct lists of plain segments render to distinct paths. */
  lemma {:induction false} RenderInjective(xs: seq<string>, ys: seq<string>)
    requires AllPlain(xs) && AllPlain(ys)
    requires Render(xs) == Render(ys)
    ensures xs == ys
  {
    SplitRender(xs);
    SplitRender(ys);
    if |xs| > 0 && |ys| > 0 {
      assert [""] + xs == [""] + ys;
      assert xs == ([""] + xs)[1..];
    }
  }

  lemma {:induction false} RenderDistinct(xs: seq<string>, ys: seq<string>)
    requires AllPlain(xs) && AllPlain(ys)
    requires xs != ys
    ensures Render(xs) != Render(ys)
  {
    if Render(xs) == Render(ys) {
      RenderInjective(xs, ys);
    }
  }

  /** A rendered path lies within another only when the other's segments begin its own. */
  lemma {:induction false} WithinRender(xs: seq<string>, ys: seq<string>)
    requires AllPlain(xs) && AllPlain(ys) && |xs| > 0
    requires Within(Render(ys), Render(xs))
    ensures |xs| <= |ys| && ys[..|xs|] == xs
  {
    var a := Render(xs);
    if Render(ys) == a {
      RenderInjective(xs, ys);
    } else {
      var rest := Render(ys)[|a| + 1..];
      assert Render(ys) == a + ['/'] + rest;
      SplitAt(a, rest, '/');
      SplitRender(xs);
      SplitRender(ys);
      assert [""] + ys == [""] + xs + Split(rest, '/');
      assert ys == ([""] + ys)[1..];
      assert ys == xs + Split(rest, '/');
    }
  }

  /** Segments a walk keeps are non-empty and free of slashes. */
  predicate Kept(segs: seq<string>)
  {
    forall i :: 0 <= i < |segs| ==> segs[i] != "" && '/' !in segs[i]
  }

  lemma {:induction false} WalkKept(rooted: bool, stack: seq<string>, segs: seq<string>)
    requires Kept(stack)
    requires forall i :: 0 <= i < |segs| ==> '/' !in segs[i]
    ensures Kept(Walk(rooted, stack, segs))
    decreases |segs|
  {
    if |segs| > 0 {
      var next := Step(rooted, stack, segs[0]);
      assert Kept(next) by {
        if |stack| > 0 {
          assert forall i :: 0 <= i < |stack| - 1 ==> stack[..|stack| - 1][i] == stack[i];
        }
      }
      assert forall i :: 0 <= i < |segs| - 1 ==> segs[1..][i] == segs[i + 1];
      WalkKept(rooted, next, segs[1..]);
    }
  }

  /** A rooted walk never keeps `..`, so what it keeps is plain. */
  lemma {:induction false} WalkRootedPlain(stack: seq<string>, segs: seq<string>)
    requires AllPlain(stack)
    requires forall i :: 0 <= i < |segs| ==> '/' !in segs[i]
    ensures AllPlain(Walk(true, stack, segs))
    decreases |segs|
  {
    if |segs| > 0 {
      var next := Step(true, stack, segs[0]);
      assert AllPlain(next) by {
        if |stack| > 0 {
          assert forall i :: 0 <= i < |stack| - 1 ==> stack[..|stack| - 1][i] == stack[i];
        }
      }
      assert forall i :: 0 <= i < |segs| - 1 ==> segs[1..][i] == segs[i + 1];
      WalkRootedPlain(next, segs[1..]);
    }
  }

  /** `path.Clean` keeps a path rooted or relative, and never returns the empty path. */
  lemma {:induction false} CleanKeepsRootedness(p: string)
    ensures |Clean(p)| > 0
    ensures Clean(p)[0] == '/' <==> |p| > 0 && p[0] == '/'
  {
    var rooted := |p| > 0 && p[0] == '/';
    var parts := Split(p, '/');
    var segs := Walk(rooted, [], parts);
    if !rooted && segs != [] {
      WalkKept(false, [], parts);
      JoinHead(segs, '/');
      assert segs[0] != "" && '/' !in segs[0];
      assert segs[0][0] in segs[0];
    }
  }

  /** Cleaning a rooted path twice is cleaning it once. */
  lemma {:induction false} CleanIdempotentRooted(p: string)
    requires |p| > 0 && p[0] == '/'
    ensures Clean(Clean(p)) == Clean(p)
  {
    var segs := Walk(true, [], Split(p, '/'));
    WalkRootedPlain([], Split(p, '/'));
    CleanRender(segs);
  }
}

=== FILE: promote.dfy ===
/**
 * `etcdPromote`: turns a proxy node into a voting member. An environment that
 * cannot be read is an error; a node whose environment already says proxy mode is
 * off is left alone. Otherwise the four membership keys
 * are upserted into the node environment, which is saved; the store is stopped,
 * the proxy's data directory removed, the version links set up for a non-proxy
 * node, unit files reloaded, the store started and the node agent restarted.
 */
module Promotion {
  import opened Wrappers
  import opened Names
  import opened Errors
  import opened Environment

  /** An externally visible step of the promotion, in the order it is taken. */
  datatype Action =
    | SaveEnvironment(env: map<string, string>)  // `box.WriteEnvironment`
    | Systemctl(args: seq<string>)               // `/bin/systemctl <args>`
    | RemoveAll(path: string)                    // `os.RemoveAll`
    | SetupLinks(proxy: string)                  // `setupEtcd` for the given proxy setting

  /** The environment after the promotion and the steps taken. */
  datatype Promotion = Promotion(env: map<string, string>, actions: seq<Action>)

  /** The keys a promotion sets. */
  const MembershipKeys: set<string> := {ProxyKey, MemberNameKey, InitialClusterKey, InitialClusterStateKey}

  /** The values the promotion upserts. */
  function Membership(name: string, initialCluster: string, initialClusterState: string): map<string, string>
  {
    map[ProxyKey := ProxyOff, MemberNameKey := name,
        InitialClusterKey := initialCluster, InitialClusterStateKey := initialClusterState]
  }

  /** The service steps that follow saving the environment. */
  const Restarts: seq<Action> := [
    Systemctl(["stop", "etcd"]),
    RemoveAll(ProxyDir),
    SetupLinks(ProxyOff),
    Systemctl(["daemon-reload"]),
    Systemctl(["start", EtcdUnit]),
    Systemctl(["restart", AgentUnit])
  ]

  /**
   * One run of `etcdPromote(name, initialCluster, initialClusterState)` on the node
   * environment, which is None when it cannot be read.
   */
  function Promote(env: Option<map<string, string>>, name: string, initialCluster: string,
                   initialClusterState: string): (r: Result<Promotion, Error>)
    ensures env.None? <==> r.Failure?
    ensures r.Failure? ==> r.error == EnvironmentUnreadable
    ensures r.Success? ==> (Get(env.value, ProxyKey) == ProxyOff <==> r.value.actions == [])
    ensures r.Success? && Get(env.value, ProxyKey) == ProxyOff ==> r.value.env == env.value
    ensures r.Success? && Get(env.value, ProxyKey) != ProxyOff ==>
      && r.value.env.Keys == env.value.Keys + MembershipKeys
      && r.value.env[ProxyKey] == ProxyOff
      && r.value.env[MemberNameKey] == name
      && r.value.env[InitialClusterKey] == initialCluster
      && r.value.env[InitialClusterStateKey] == initialClusterState
      && (forall k :: k in env.value && k !in MembershipKeys ==> r.value.env[k] == env.value[k])
      && r.value.actions[0] == SaveEnvironment(r.value.env)
  {
    match env
    case None => Failure(EnvironmentUnreadable)
    case Some(e) =>
      if Get(e, ProxyKey) == ProxyOff then Success(Promotion(e, []))
      else
        var e' := UpsertAll(e, Membership(name, initialCluster, initialClusterState));
        Success(Promotion(e', [SaveEnvironment(e')] + Restarts))
  }

  /** A second promotion, after a first one on a readable environment, finds proxy mode off and does nothing. */
  lemma PromoteSettles(env: map<string, string>, name: string, initialCluster: string,
                                           initialClusterState: string, name': string, initialCluster': string,
                                           initialClusterState': string)
    ensures var p := Promote(Some(env), name, initialCluster, initialClusterState).value;
      Promote(Some(p.env), name', initialCluster', initialClusterState') == Success(Promotion(p.env, []))
  {
  }

  /** The proxy's data is removed only after the store is stopped, and the store is started after that. */
  lemma {:induction false} StopBeforeRemoveBeforeStart(env: map<string, string>, name: string,
                                                       initialCluster: string, initialClusterState: string)
    requires Get(env, ProxyKey) != ProxyOff
    ensures var acts := Promote(Some(env), name, initialCluster, initialClusterState).value.actions;
      exists i, j, k :: 0 <= i < j < k < |acts|
        && acts[i] == Systemctl(["stop", "etcd"])
        && acts[j] == RemoveAll(ProxyDir)
        && acts[k] == Systemctl(["start", EtcdUnit])
        && (forall m :: 0 <= m < |acts| && acts[m].RemoveAll? ==> m == j)
  {
    var acts := Promote(Some(env), name, initialCluster, initialClusterState).value.actions;
    assert acts[1] == Systemctl(["stop", "etcd"]);
    assert acts[2] == RemoveAll(ProxyDir);
    assert acts[5] == Systemctl(["start", EtcdUnit]);
  }
}

=== FILE: registry.dfy ===
/**
 * The version-record file: `writeEtcdEnvironment` renders the current version,
 * the optional previous version and the storage-backend tag as `key=value`
 * lines; `readEtcdVersion` scans the lines back, letting a later line override
 * an earlier one, and fails unless a non-empty current version was found.
 */
module Registry {
  import opened Wrappers
  import opened Text
  import opened Names
  import opened Errors

  /** The versions a record file holds; `previous` is "" when there is none. */
  datatype Record = Record(current: string, previous: string)

  /** The storage-backend tag recorded alongside `version`. */
  function Backend(version: string): (tag: string)
    ensures tag == LegacyBackend <==> version == AssumedVersion
    ensures tag == LegacyBackend || tag == ModernBackend
  {
    if version == AssumedVersion then LegacyBackend else ModernBackend
  }

  /** A `key=value` line. */
  function Entry(key: string, value: string): string
  {
    key + "=" + value
  }

  /** The lines a record file holds, in the order they are written. */
  function RecordLines(version: string, prevVersion: string): seq<string>
  {
    [Entry(VersionKey, version)]
    + (if prevVersion != "" then [Entry(PrevVersionKey, prevVersion)] else [])
    + [Entry(BackendKey, Backend(version))]
  }

  /** The text `writeEtcdEnvironment` leaves in the file. */
  function RecordText(version: string, prevVersion: string): string
  {
    Entry(VersionKey, version) + "\n"
    + (if prevVersion != "" then Entry(PrevVersionKey, prevVersion) + "\n" else "")
    + Entry(BackendKey, Backend(version)) + "\n"
  }

  /**
   * The scanner reads the written text back as the version line, the previous-version
   * line only when there is a previous version, and the backend line.
   */
  lemma {:induction false} RecordTextLines(version: string, prevVersion: string)
    requires LineSafe(version) && LineSafe(prevVersion)
    ensures Lines(RecordText(version, prevVersion)) == RecordLines(version, prevVersion)
  {
    TextIsTerminated(version, prevVersion);
    EntriesSafe(version, prevVersion);
    LinesTerminated(RecordLines(version, prevVersion));
  }

  lemma {:induction false} TextIsTerminated(version: string, prevVersion: string)
    ensures Terminated(RecordLines(version, prevVersion)) == RecordText(version, prevVersion)
  {
    var a := Entry(VersionKey, version);
    var c := Entry(BackendKey, Backend(version));
    if prevVersion != "" {
      var b := Entry(PrevVersionKey, prevVersion);
      assert RecordLines(version, prevVersion) == [a, b, c];
      TerminatedThree(a, b, c);
    } else {
      assert RecordLines(version, prevVersion) == [a, c];
      TerminatedTwo(a, c);
    }
  }

  lemma {:induction false} TerminatedTwo(a: string, c: string)
    ensures Terminated([a, c]) == a + "\n" + "" + c + "\n"
  {
    TerminatedSnoc([], a);
    assert [] + [a] == [a];
    TerminatedSnoc([a], c);
    assert [a] + [c] == [a, c];
  }

  lemma {:induction false} TerminatedThree(a: string, b: string, c: string)
    ensures Terminated([a, b, c]) == a + "\n" + (b + "\n") + c + "\n"
  {
    TerminatedTwo(a, b);
    TerminatedSnoc([a, b], c);
    assert [a, b] + [c] == [a, b, c];
  }

  lemma {:induction false} EntriesSafe(version: string, prevVersion: string)
    requires LineSafe(version) && LineSafe(prevVersion)
    ensures forall i :: 0 <= i < |RecordLines(version, prevVersion)| ==>
      LineSafe(RecordLines(version, prevVersion)[i])
  {
    EntrySafe(VersionKey, version);
    EntrySafe(PrevVersionKey, prevVersion);
    EntrySafe(BackendKey, Backend(version));
  }

  lemma {:induction false} EntrySafe(key: string, value: string)
    requires '\n' !in key
    requires LineSafe(value)
    ensures LineSafe(Entry(key, value))
  {
    var e := Entry(key, value);
    assert e == key + "=" + value;
    assert forall i :: 0 <= i < |e| ==> e[i] == '=' || e[i] in key || e[i] in value by {
      forall i | 0 <= i < |e|
        ensures e[i] == '=' || e[i] in key || e[i] in value
      {
        if i < |key| {
          assert e[i] == key[i];
        } else if i > |key| {
          assert e[i] == value[i - |key| - 1];
        }
      }
    }
    if |value| > 0 {
      assert e[|e| - 1] == value[|value| - 1];
    }
  }

  /** `strings.SplitN(line, "=", 2)` on a line with a '=': the key before the first '=' and the rest. */
  function Field(line: string): (r: Option<(string, string)>)
    ensures r.None? <==> '=' !in line
    ensures r.Some? ==> '=' !in r.value.0 && line == r.value.0 + "=" + r.value.1
  {
    match FirstIndex(line, '=')
    case None => None
    case Some(i) =>
      assert line == line[..i] + "=" + line[i + 1..];
      Some((line[..i], line[i + 1..]))
  }

  /** Only the first '=' separates the key from the value. */
  lemma {:induction false} FieldSplitsAtFirst(key: string, value: string)
    requires '=' !in key
    ensures Field(key + "=" + value) == Some((key, value))
  {
    var line := key + "=" + value;
    var i := FirstIndex(line, '=').value;
    assert line[|key|] == '=';
    assert forall k :: 0 <= k < |key| ==> line[k] == key[k];
    assert line[..|key|] == key;
    assert line[|key| + 1..] == value;
  }

  /** Applies one line to the versions scanned so far. */
  function Absorb(seen: Record, line: string): Record
  {
    match Field(line)
    case None => seen
    case Some((key, value)) =>
      if key == VersionKey then seen.(current := value)
      else if key == PrevVersionKey then seen.(previous := value)
      else seen
  }

  /** The versions left by scanning `lines` in order, starting from two empty strings. */
  function Scan(lines: seq<string>): Record
    decreases |lines|
  {
    if |lines| == 0 then Record("", "")
    else Absorb(Scan(lines[..|lines| - 1]), lines[|lines| - 1])
  }

  /** The parse of a record file's text. */
  function ParseRecord(text: string): (r: Result<Record, Error>)
    ensures r.Success? ==> r.value.current != ""
    ensures r.Failure? ==> r.error == Malformed
  {
    var seen := Scan(Lines(text));
    if seen.current == "" then Failure(Malformed) else Success(seen)
  }

  /** `readEtcdVersion`: a missing file is NotFound, an unreadable one an OS error. */
  function ReadVersion(file: FileState): (r: Result<Record, Error>)
    ensures file.Missing? <==> r == Failure(NotFound)
    ensures file.Unreadable? <==> r == Failure(SystemFailure)
    ensures file.Content? ==> r == ParseRecord(file.text)
  {
    match file
    case Missing => Failure(NotFound)
    case Unreadable => Failure(SystemFailure)
    case Content(text) => ParseRecord(text)
  }

  /** The record the upgrade and init flows act on: a missing file means the sentinel version, no previous one. */
  function Recorded(file: FileState): (r: Result<Record, Error>)
    ensures file.Missing? ==> r == Success(Record(AssumedVersion, ""))
    ensures !file.Missing? ==> r == ReadVersion(file)
  {
    match ReadVersion(file)
    case Failure(NotFound) => Success(Record(AssumedVersion, ""))
    case other => other
  }

  // ---------------------------------------------------------------------------
  // Round trip

  /** Values the record file can carry without being altered by the scanner. */
  predicate Storable(r: Record)
  {
    r.current != "" && LineSafe(r.current) && LineSafe(r.previous)
  }

  /** The record keys are distinct and have no '='. */
  lemma KeysAreDistinct()
    ensures '=' !in VersionKey && '=' !in PrevVersionKey && '=' !in BackendKey
    ensures VersionKey != PrevVersionKey && VersionKey != BackendKey && PrevVersionKey != BackendKey
  {
  }

  /** Scanning one more line absorbs it into the versions scanned so far. */
  lemma {:induction false} ScanSnoc(lines: seq<string>, line: string)
    ensures Scan(lines + [line]) == Absorb(Scan(lines), line)
  {
    assert (lines + [line])[..|lines|] == lines;
  }

  /** A `key=value` line sets the slot of `key`, if it is one of the version keys. */
  lemma {:induction false} AbsorbEntry(seen: Record, key: string, value: string)
    requires '=' !in key
    ensures Absorb(seen, Entry(key, value)) ==
      if key == VersionKey then seen.(current := value)
      else if key == PrevVersionKey then seen.(previous := value)
      else seen
  {
    FieldSplitsAtFirst(key, value);
  }

  /** Scanning the lines of a record recovers its versions; the backend line changes nothing. */
  lemma {:induction false} ScanRecordLines(version: string, prevVersion: string)
    ensures Scan(RecordLines(version, prevVersion)) == Record(version, prevVersion)
  {
    KeysAreDistinct();
    var a := Entry(VersionKey, version);
    var c := Entry(BackendKey, Backend(version));
    ScanSnoc([], a);
    AbsorbEntry(Record("", ""), VersionKey, version);
    assert [] + [a] == [a];
    var mid := if prevVersion != "" then [a, Entry(PrevVersionKey, prevVersion)] else [a];
    if prevVersion != "" {
      ScanSnoc([a], Entry(PrevVersionKey, prevVersion));
      AbsorbEntry(Record(version, ""), PrevVersionKey, prevVersion);
      assert [a] + [Entry(PrevVersionKey, prevVersion)] == mid;
    }
    assert Scan(mid) == Record(version, prevVersion);
    assert RecordLines(version, prevVersion) == mid + [c];
    ScanSnoc(mid, c);
    AbsorbEntry(Record(version, prevVersion), BackendKey, Backend(version));
  }

  /** Writing a record and reading it back yields the same versions; the backend line is ignored. */
  lemma {:induction false} RoundTrip(version: string, prevVersion: string)
    requires version != "" && LineSafe(version) && LineSafe(prevVersion)
    ensures ParseRecord(RecordText(version, prevVersion)) == Success(Record(version, prevVersion))
  {
    RecordTextLines(version, prevVersion);
    ScanRecordLines(version, prevVersion);
  }

  // ---------------------------------------------------------------------------
  // Parser rules, against a reference stated over line positions

  /** The line sets `key`. */
  predicate Assigns(line: string, key: string)
  {
    Field(line).Some? && Field(line).value.0 == key
  }

  /** The value a `key=value` line sets. */
  function Assigned(line: string): string
    requires Field(line).Some?
  {
    Field(line).value.1
  }

  /** Line `i` is the last one that sets `key`. */
  predicate LastAssignment(lines: seq<string>, key: string, i: int)
  {
    0 <= i < |lines| && Assigns(lines[i], key)
    && forall j :: i < j < |lines| ==> !Assigns(lines[j], key)
  }

  /** The scanned value for one of the two version keys. */
  function Slot(seen: Record, key: string): string
  {
    if key == VersionKey then seen.current else seen.previous
  }

  /**
   * A line that sets the current or the previous version overwrites that slot with
   * its value; any other line leaves both alone.
   */
  lemma {:induction false} AbsorbAssigns(seen: Record, line: string)
    ensures Assigns(line, VersionKey) ==> Absorb(seen, line) == seen.(current := Assigned(line))
    ensures Assigns(line, PrevVersionKey) ==> Absorb(seen, line) == seen.(previous := Assigned(line))
    ensures !Assigns(line, VersionKey) && !Assigns(line, PrevVersionKey) ==> Absorb(seen, line) == seen
  {
  }

  /** A non-empty scanned value is the value some line assigns to that key. */
  lemma {:induction false} ScanValuesComeFromLines(lines: seq<string>, key: string)
    requires key == VersionKey || key == PrevVersionKey
    ensures Slot(Scan(lines), key) != "" ==>
      exists i :: 0 <= i < |lines| && Assigns(lines[i], key) && Assigned(lines[i]) == Slot(Scan(lines), key)
    decreases |lines|
  {
    if |lines| > 0 {
      var n := |lines|;
      var init := lines[..n - 1];
      ScanValuesComeFromLines(init, key);
      if Slot(Scan(lines), key) != "" && !Assigns(lines[n - 1], key) {
        var i :| 0 <= i < |init| && Assigns(init[i], key) && Assigned(init[i]) == Slot(Scan(init), key);
        assert lines[i] == init[i];
      }
    }
  }

  /** When a key is set more than once, the last line wins. */
  lemma {:induction false} ScanTakesLast(lines: seq<string>, key: string, i: int)
    requires key == VersionKey || key == PrevVersionKey
    requires LastAssignment(lines, key, i)
    ensures Slot(Scan(lines), key) == Assigned(lines[i])
    decreases |lines|
  {
    var n := |lines|;
    var init := lines[..n - 1];
    if i < n - 1 {
      assert LastAssignment(init, key, i) by {
        forall j | i < j < |init|
          ensures !Assigns(init[j], key)
        {
          assert init[j] == lines[j];
        }
      }
      ScanTakesLast(init, key, i);
      assert !Assigns(lines[n - 1], key);
    }
  }

  /** A key no line sets scans as "". */
  lemma {:induction false} ScanUnassigned(lines: seq<string>, key: string)
    requires key == VersionKey || key == PrevVersionKey
    requires forall j :: 0 <= j < |lines| ==> !Assigns(lines[j], key)
    ensures Slot(Scan(lines), key) == ""
    decreases |lines|
  {
    if |lines| > 0 {
      var init := lines[..|lines| - 1];
      assert forall j :: 0 <= j < |init| ==> init[j] == lines[j];
      ScanUnassigned(init, key);
      assert !Assigns(lines[|lines| - 1], key);
    }
  }

  /** If any line sets `key`, one of them is the last. */
  lemma {:induction false} SomeAssignmentIsLast(lines: seq<string>, key: string, j: int)
    requires 0 <= j < |lines| && Assigns(lines[j], key)
    ensures exists i :: LastAssignment(lines, key, i)
    decreases |lines|
  {
    var n := |lines|;
    if Assigns(lines[n - 1], key) {
      assert LastAssignment(lines, key, n - 1);
    } else {
      var init := lines[..n - 1];
      assert j < n - 1;
      assert init[j] == lines[j];
      SomeAssignmentIsLast(init, key, j);
      var i :| LastAssignment(init, key, i);
      assert LastAssignment(lines, key, i);
    }
  }

  /**
   * What the parser accepts and returns: a record exactly when the last line setting
   * the current-version key gives it a non-empty value; the current version is that
   * value, and the previous version is the value of the last line setting it, or "".
   */
  lemma {:induction false} ParseMeaning(text: string)
    ensures var lines := Lines(text);
      ParseRecord(text).Success? <==>
        exists i :: LastAssignment(lines, VersionKey, i) && Assigned(lines[i]) != ""
    ensures var lines := Lines(text);
      forall i :: LastAssignment(lines, VersionKey, i) && Assigned(lines[i]) != "" ==>
        ParseRecord(text).value.current == Assigned(lines[i])
    ensures var lines := Lines(text);
      ParseRecord(text).Success? ==>
        (forall i :: LastAssignment(lines, PrevVersionKey, i) ==>
          ParseRecord(text).value.previous == Assigned(lines[i]))
        && ((forall j :: 0 <= j < |lines| ==> !Assigns(lines[j], PrevVersionKey)) ==>
          ParseRecord(text).value.previous == "")
  {
    var lines := Lines(text);
    forall i | LastAssignment(lines, VersionKey, i)
      ensures Scan(lines).current == Assigned(lines[i])
    {
      ScanTakesLast(lines, VersionKey, i);
    }
    forall i | LastAssignment(lines, PrevVersionKey, i)
      ensures Scan(lines).previous == Assigned(lines[i])
    {
      ScanTakesLast(lines, PrevVersionKey, i);
    }
    if forall j :: 0 <= j < |lines| ==> !Assigns(lines[j], PrevVersionKey) {
      ScanUnassigned(lines, PrevVersionKey);
    }
    if ParseRecord(text).Success? {
      if forall j :: 0 <= j < |lines| ==> !Assigns(lines[j], VersionKey) {
        ScanUnassigned(lines, VersionKey);
        assert false;
      }
      var j :| 0 <= j < |lines| && Assigns(lines[j], VersionKey);
      SomeAssignmentIsLast(lines, VersionKey, j);
    }
  }

  /** A line without '=' can be inserted anywhere without changing the scan. */
  lemma {:induction false} ScanIgnoresPlainLine(before: seq<string>, line: string, after: seq<string>)
    requires '=' !in line
    ensures Scan(before + [line] + after) == Scan(before + after)
    decreases |after|
  {
    if |after| == 0 {
      assert (before + [line] + after)[..|before|] == before;
      assert before + after == before;
    } else {
      var init := after[..|after| - 1];
      var last := after[|after| - 1];
      ScanIgnoresPlainLine(before, line, init);
      assert (before + [line] + after)[..|before| + |after|] == before + [line] + init;
      assert (before + after)[..|before| + |after| - 1] == before + init;
    }
  }
}

=== FILE: text.dfy ===
/**
 * Character-level text handling used by the version-record file and by path
 * manipulation: splitting on a separator (Go's `strings.Split` / `SplitN` with a
 * single-character separator), joining, locating the first separator, and
 * breaking a file into lines the way `bufio.ScanLines` does.
 */
module Text {
  import opened Wrappers

  /** Splits `s` at every occurrence of `sep`; the result always has at least one part. */
  function Split(s: string, sep: char): (parts: seq<string>)
    ensures |parts| >= 1
    ensures forall i :: 0 <= i < |parts| ==> sep !in parts[i]
    decreases |s|
  {
    if |s| == 0 then [""] else Extend(Split(s[..|s| - 1], sep), s[|s| - 1], sep)
  }

  /** The parts after one more character: a separator opens a new part, anything else grows the last one. */
  function Extend(parts: seq<string>, c: char, sep: char): (r: seq<string>)
    requires |parts| >= 1
    ensures |r| >= 1
    ensures (forall i :: 0 <= i < |parts| ==> sep !in parts[i]) ==> forall i :: 0 <= i < |r| ==> sep !in r[i]
  {
    if c == sep then parts + [""]
    else parts[..|parts| - 1] + [parts[|parts| - 1] + [c]]
  }

  lemma {:induction false} ExtendConcat(p: seq<string>, q: seq<string>, c: char, sep: char)
    requires |q| >= 1
    ensures Extend(p + q, c, sep) == p + Extend(q, c, sep)
  {
    if c != sep {
      assert (p + q)[..|p + q| - 1] == p + q[..|q| - 1];
      assert (p + q)[|p + q| - 1] == q[|q| - 1];
    }
  }

  /** Places `sep` between consecutive parts. */
  function Join(parts: seq<string>, sep: char): string
    decreases |parts|
  {
    if |parts| == 0 then ""
    else if |parts| == 1 then parts[0]
    else Join(parts[..|parts| - 1], sep) + [sep] + parts[|parts| - 1]
  }

  /** A join begins with the first part's first character. */
  lemma {:induction false} JoinHead(parts: seq<string>, sep: char)
    requires |parts| > 0 && |parts[0]| > 0
    ensures |Join(parts, sep)| > 0 && Join(parts, sep)[0] == parts[0][0]
    decreases |parts|
  {
    if |parts| > 1 {
      var init := parts[..|parts| - 1];
      assert init[0] == parts[0];
      JoinHead(init, sep);
    }
  }

  /** Position of the first `c` in `s`, if any. */
  function FirstIndex(s: string, c: char): (r: Option<nat>)
    ensures r.None? <==> c !in s
    ensures r.Some? ==> r.value < |s| && s[r.value] == c && c !in s[..r.value]
  {
    if |s| == 0 then None
    else if s[0] == c then Some(0)
    else match FirstIndex(s[1..], c)
      case None => None
      case Some(i) =>
        assert s[1..][..i] == s[1..i + 1];
        assert s[..i + 1] == [s[0]] + s[1..i + 1];
        Some(i + 1)
  }

  /** A string without `sep` splits into itself alone. */
  lemma {:induction false} SplitFree(s: string, sep: char)
    requires sep !in s
    ensures Split(s, sep) == [s]
    decreases |s|
  {
    if |s| > 0 {
      SplitFree(s[..|s| - 1], sep);
      assert s[..|s| - 1] + [s[|s| - 1]] == s;
    }
  }

  /** Splitting distributes over a separator occurrence. */
  lemma {:induction false} SplitAt(a: string, b: string, sep: char)
    ensures Split(a + [sep] + b, sep) == Split(a, sep) + Split(b, sep)
    decreases |b|
  {
    var s := a + [sep] + b;
    if |b| == 0 {
      assert s[..|s| - 1] == a;
      assert s[|s| - 1] == sep;
    } else {
      var b' := b[..|b| - 1];
      var x := b[|b| - 1];
      assert s[..|s| - 1] == a + [sep] + b';
      assert s[|s| - 1] == x;
      SplitAt(a, b', sep);
      ExtendConcat(Split(a, sep), Split(b', sep), x, sep);
    }
  }

  /** Joining after one more character is joining before it, followed by that character. */
  lemma {:induction false} JoinExtend(parts: seq<string>, c: char, sep: char)
    requires |parts| >= 1
    ensures Join(Extend(parts, c, sep), sep) == Join(parts, sep) + [c]
  {
    var k := |parts|;
    var r := Extend(parts, c, sep);
    if c == sep {
      assert r[..k] == parts;
      assert r[k] == "";
    } else {
      assert r[..k - 1] == parts[..k - 1];
      assert r[k - 1] == parts[k - 1] + [c];
      if k > 1 {
        assert Join(r, sep) == Join(parts[..k - 1], sep) + [sep] + (parts[k - 1] + [c]);
        assert Join(parts, sep) == Join(parts[..k - 1], sep) + [sep] + parts[k - 1];
      }
    }
  }

  /** Joining the parts of a split gives back the original string. */
  lemma {:induction false} JoinSplit(s: string, sep: char)
    ensures Join(Split(s, sep), sep) == s
    decreases |s|
  {
    if |s| > 0 {
      var s' := s[..|s| - 1];
      JoinSplit(s', sep);
      JoinExtend(Split(s', sep), s[|s| - 1], sep);
      assert s' + [s[|s| - 1]] == s;
    }
  }

  /** Splitting a join of separator-free parts gives back the parts. */
  lemma {:induction false} SplitJoin(parts: seq<string>, sep: char)
    requires |parts| >= 1
    requires forall i :: 0 <= i < |parts| ==> sep !in parts[i]
    ensures Split(Join(parts, sep), sep) == parts
    decreases |parts|
  {
    if |parts| == 1 {
      SplitFree(parts[0], sep);
    } else {
      var init := parts[..|parts| - 1];
      SplitJoin(init, sep);
      SplitAt(Join(init, sep), parts[|parts| - 1], sep);
      SplitFree(parts[|parts| - 1], sep);
      assert init + [parts[|parts| - 1]] == parts;
    }
  }

  /** Removes one trailing carriage return, as `bufio.ScanLines` does with each token. */
  function DropCR(line: string): string
  {
    if |line| > 0 && line[|line| - 1] == '\r' then line[..|line| - 1] else line
  }

  /** The newline-separated tokens of `text`; an empty final token (after a trailing newline) is not one. */
  function Tokens(text: string): (tokens: seq<string>)
    ensures forall i :: 0 <= i < |tokens| ==> '\n' !in tokens[i]
  {
    var parts := Split(text, '\n');
    if parts[|parts| - 1] == "" then parts[..|parts| - 1] else parts
  }

  /**
   * The lines `bufio.ScanLines` yields for `text`: tokens between newlines, a final
   * unterminated token included when non-empty, each with one trailing '\r' removed.
   */
  function Lines(text: string): (lines: seq<string>)
    ensures |lines| == |Tokens(text)|
    ensures forall i :: 0 <= i < |lines| ==> lines[i] == DropCR(Tokens(text)[i])
    ensures forall i :: 0 <= i < |lines| ==> '\n' !in lines[i]
  {
    var tokens := Tokens(text);
    seq(|tokens|, i requires 0 <= i < |tokens| => DropCR(tokens[i]))
  }

  /** A line that survives being written with a newline and scanned back. */
  predicate LineSafe(line: string)
  {
    '\n' !in line && (|line| == 0 || line[|line| - 1] != '\r')
  }

  /** Each line followed by a newline, as a sequence of `Fprint(..., "\n")` calls writes them. */
  function Terminated(lines: seq<string>): string
    decreases |lines|
  {
    if |lines| == 0 then ""
    else Terminated(lines[..|lines| - 1]) + lines[|lines| - 1] + "\n"
  }

  lemma {:induction false} TerminatedSnoc(lines: seq<string>, line: string)
    ensures Terminated(lines + [line]) == Terminated(lines) + line + "\n"
  {
    assert (lines + [line])[..|lines|] == lines;
  }

  lemma {:induction false} SplitTerminated(lines: seq<string>, last: string)
    requires forall i :: 0 <= i < |lines| ==> '\n' !in lines[i]
    requires '\n' !in last
    ensures Split(Terminated(lines) + last, '\n') == lines + [last]
    decreases |lines|
  {
    if |lines| == 0 {
      assert Terminated(lines) + last == last;
      SplitFree(last, '\n');
    } else {
      var init := lines[..|lines| - 1];
      var m := lines[|lines| - 1];
      SplitTerminated(init, m);
      assert Terminated(lines) + last == (Terminated(init) + m) + ['\n'] + last;
      SplitAt(Terminated(init) + m, last, '\n');
      SplitFree(last, '\n');
      assert init + [m] == lines;
    }
  }

  /** Writing lines newline-terminated and scanning them back gives the same lines. */
  lemma {:induction false} LinesTerminated(lines: seq<string>)
    requires forall i :: 0 <= i < |lines| ==> LineSafe(lines[i])
    ensures Lines(Terminated(lines)) == lines
  {
    SplitTerminated(lines, "");
    assert Terminated(lines) + "" == Terminated(lines);
    var parts := Split(Terminated(lines), '\n');
    assert parts == lines + [""];
    assert Tokens(Terminated(lines)) == lines;
    var r := Lines(Terminated(lines));
    assert |r| == |lines|;
    forall i | 0 <= i < |lines|
      ensures r[i] == lines[i]
    {
      assert LineSafe(lines[i]);
    }
  }
}

=== FILE: upgrade.dfy ===
/**
 * `etcdUpgrade`: the re-entrant upgrade/rollback of the store's version record.
 * A proxy node does nothing; otherwise both store units must be stopped (a unit
 * whose status cannot be queried is skipped), the desired version is read from
 * the release file and the current and backup versions from the record (a
 * missing record means the sentinel version). Rollback re-records the backup as
 * current; upgrade records the desired version with the current one as backup,
 * wipes the displaced backup's data and, on every run, the desired version's
 * data. Finally the API server is restarted if it is not inactive.
 */
module UpgradeFlow {
  import opened Wrappers
  import opened Text
  import opened Paths
  import opened Names
  import opened Errors
  import opened Environment
  import opened Registry
  import opened Layout

  /** What the flow reads and changes on the node. */
  datatype Node = Node(
    env: Option<map<string, string>>,  // the node environment, None when it cannot be read
    units: map<string, string>,        // each unit's active state; a unit without an entry cannot be queried
    release: FileState,                // the release file naming the desired version
    record: FileState,                 // the version-record file
    latest: Option<string>,            // where the "latest" link points, None when there is no link
    members: set<string>)              // the data directories present, by paths without links

  /** An externally visible step, in the order it is taken. */
  datatype Effect =
    | WriteRecord(record: Record)  // `writeEtcdEnvironment` of the record file
    | Purge(dir: string)           // `os.RemoveAll` of a data directory and everything below it
    | Restart(unit: string)        // best-effort `systemctl restart`

  /** The steps a run took and the error it ended with, if any. */
  datatype Run = Run(effects: seq<Effect>, failure: Option<Error>)

  /** The units that must be stopped before the record may change. */
  const GuardedUnits: seq<string> := [EtcdUnit, EtcdUpgradeUnit]

  /** A unit state that allows the upgrade to proceed. */
  predicate Stopped(state: string)
  {
    state == Inactive || state == Failed
  }

  /** The first unit of `names` whose status was obtained and is not a stopped one. */
  function BusyUnit(units: map<string, string>, names: seq<string>): (r: Option<Error>)
    ensures r.None? <==> forall i :: 0 <= i < |names| && names[i] in units ==> Stopped(units[names[i]])
    ensures r.Some? ==>
      exists i :: 0 <= i < |names| && names[i] in units && !Stopped(units[names[i]])
        && r.value == UnitBusy(names[i], units[names[i]])
        && (forall j :: 0 <= j < i && names[j] in units ==> Stopped(units[names[j]]))
    decreases |names|
  {
    if |names| == 0 then None
    else if names[0] in units && !Stopped(units[names[0]]) then Some(UnitBusy(names[0], units[names[0]]))
    else
      var rest := BusyUnit(units, names[1..]);
      assert forall i :: 1 <= i < |names| ==> names[i] == names[1..][i - 1];
      rest
  }

  /** The record change and data wipes for the recorded versions `rec`. */
  function Transition(rollback: bool, desired: string, rec: Record): (effects: seq<Effect>)
    ensures forall i :: 0 <= i < |effects| ==> !effects[i].Restart?
    ensures rollback ==> (effects != [] <==> rec.previous != "")
    ensures rollback ==> forall i :: 0 <= i < |effects| ==> effects[i] == WriteRecord(Record(rec.previous, ""))
    ensures !rollback ==> effects != [] && effects[|effects| - 1] == Purge(MemberDir(desired))
    ensures !rollback ==> (effects[0].WriteRecord? <==> rec.current != desired)
    ensures !rollback && rec.current != desired ==> effects[0] == WriteRecord(Record(desired, rec.current))
  {
    if rollback then
      if rec.previous != "" then [WriteRecord(Record(rec.previous, ""))] else []
    else
      (if rec.current != desired then
         [WriteRecord(Record(desired, rec.current))]
         + (if rec.previous != "" then [Purge(MemberDir(rec.previous))] else [])
       else [])
      + [Purge(MemberDir(desired))]
  }

  /** The node environment was read and puts the node in proxy mode. */
  predicate ProxyMode(node: Node)
  {
    node.env.Some? && Get(node.env.value, ProxyKey) == ProxyOn
  }

  /** One run of `etcdUpgrade(rollback)` against `node`. */
  function Upgrade(rollback: bool, node: Node): (run: Run)
    ensures node.env.None? ==> run == Run([], Some(EnvironmentUnreadable))
    ensures ProxyMode(node) ==> run == Run([], None)
    ensures !ProxyMode(node) && !Proceeds(node) ==> run.effects == [] && run.failure.Some?
    ensures node.env.Some? && !ProxyMode(node) && BusyUnit(node.units, GuardedUnits).Some? ==>
      run == Run([], BusyUnit(node.units, GuardedUnits))
    ensures Unblocked(node) && ReadVersion(node.release).Failure? ==>
      run == Run([], Some(ReadVersion(node.release).error))
    ensures Unblocked(node) && ReadVersion(node.release).Success? && Recorded(node.record).Failure? ==>
      run == Run([], Some(Recorded(node.record).error))
    ensures Proceeds(node) ==> (run.failure.None? <==> ApiServerUnit in node.units)
    ensures Proceeds(node) && run.failure.Some? ==> run.failure == Some(StatusUnavailable(ApiServerUnit))
  {
    if node.env.None? then Run([], Some(EnvironmentUnreadable))
    else if Get(node.env.value, ProxyKey) == ProxyOn then Run([], None)
    else match BusyUnit(node.units, GuardedUnits)
      case Some(e) => Run([], Some(e))
      case None =>
        match ReadVersion(node.release)
        case Failure(e) => Run([], Some(e))
        case Success(wanted) =>
          match Recorded(node.record)
          case Failure(e) => Run([], Some(e))
          case Success(rec) =>
            var effects := Transition(rollback, wanted.current, rec);
            if ApiServerUnit !in node.units then Run(effects, Some(StatusUnavailable(ApiServerUnit)))
            else if node.units[ApiServerUnit] != Inactive then Run(effects + [Restart(ApiServerUnit)], None)
            else Run(effects, None)
  }

  /** The run got past the environment read, the proxy check and the unit gate. */
  predicate Unblocked(node: Node)
  {
    && node.env.Some?
    && Get(node.env.value, ProxyKey) != ProxyOn
    && BusyUnit(node.units, GuardedUnits).None?
  }

  /** The run got past the environment read, the proxy check, the unit gate and both file reads. */
  predicate Proceeds(node: Node)
  {
    && node.env.Some?
    && Get(node.env.value, ProxyKey) != ProxyOn
    && BusyUnit(node.units, GuardedUnits).None?
    && ReadVersion(node.release).Success?
    && Recorded(node.record).Success?
  }

  function Desired(node: Node): string
    requires ReadVersion(node.release).Success?
  {
    ReadVersion(node.release).value.current
  }

  function Current(node: Node): Record
    requires Recorded(node.record).Success?
  {
    Recorded(node.record).value
  }

  /**
   * The path `os.RemoveAll` reaches for `path` once the "latest" link, pointing at
   * `link`, is followed: the link is followed when it lies on the way to `path`,
   * not when it is `path` itself.
   */
  function Resolve(path: string, link: Option<string>): string
  {
    if link.Some? && LatestDir() + "/" <= path then link.value + path[|LatestDir()|..] else path
  }

  /** The data directories left after `os.RemoveAll(dir)`, for a `dir` with no links on it. */
  function Wipe(members: set<string>, dir: string): (left: set<string>)
    ensures left <= members
    ensures forall m :: m in members ==> (m in left <==> !Within(m, dir))
  {
    set m | m in members && !Within(m, dir)
  }

  /** The node after one effect. */
  function Perform(node: Node, e: Effect): (n: Node)
    ensures n.env == node.env && n.units == node.units && n.release == node.release && n.latest == node.latest
    ensures e.WriteRecord? ==> n.members == node.members
    ensures e.Purge? ==> n.record == node.record && n.members <= node.members
    ensures e.Purge? ==> forall m :: m in node.members ==> (m in n.members <==> !Within(m, Resolve(e.dir, node.latest)))
    ensures e.Restart? ==> n == node
  {
    match e
    case WriteRecord(r) => node.(record := Content(RecordText(r.current, r.previous)))
    case Purge(dir) => node.(members := Wipe(node.members, Resolve(dir, node.latest)))
    case Restart(_) => node
  }

  /** The node after `effects` have been carried out in order. */
  function Apply(node: Node, effects: seq<Effect>): (n: Node)
    ensures n.env == node.env && n.units == node.units && n.release == node.release && n.latest == node.latest
    ensures n.members <= node.members
    ensures (forall i :: 0 <= i < |effects| ==> !effects[i].WriteRecord?) ==> n.record == node.record
    decreases |effects|
  {
    if |effects| == 0 then node
    else
      assert forall i :: 0 <= i < |effects| - 1 ==> effects[1..][i] == effects[i + 1];
      Apply(Perform(node, effects[0]), effects[1..])
  }

  /** The node after a run. */
  function After(node: Node, run: Run): Node
  {
    Apply(node, run.effects)
  }

  // ---------------------------------------------------------------------------
  // Effects of a single run

  /** The files read by a run hold values that survive being written back. */
  predicate WellFormed(node: Node)
  {
    && (ReadVersion(node.release).Success? ==> LineSafe(ReadVersion(node.release).value.current))
    && (ReadVersion(node.record).Success? ==> Storable(ReadVersion(node.record).value))
  }

  lemma {:induction false} ApplyConcat(node: Node, xs: seq<Effect>, ys: seq<Effect>)
    ensures Apply(node, xs + ys) == Apply(Apply(node, xs), ys)
    decreases |xs|
  {
    if |xs| == 0 {
      assert xs + ys == ys;
    } else {
      assert (xs + ys)[0] == xs[0];
      assert (xs + ys)[1..] == xs[1..] + ys;
      ApplyConcat(Perform(node, xs[0]), xs[1..], ys);
    }
  }

  lemma {:induction false} ApplyOne(node: Node, e: Effect)
    ensures Apply(node, [e]) == Perform(node, e)
  {
    assert [e][1..] == [];
  }

  /** A record written with storable values reads back as itself. */
  lemma {:induction false} WrittenRecordReads(r: Record)
    requires Storable(r)
    ensures Recorded(Content(RecordText(r.current, r.previous))) == Success(r)
  {
    RoundTrip(r.current, r.previous);
  }

  lemma AssumedStorable()
    ensures Storable(Record(AssumedVersion, ""))
  {
  }

  /** The record read by a well-formed run holds storable values. */
  lemma {:induction false} CurrentStorable(node: Node)
    requires WellFormed(node)
    requires Recorded(node.record).Success?
    ensures Storable(Current(node))
  {
    AssumedStorable();
  }

  /** A run that gets going changes the node exactly as its transition does. */
  lemma {:induction false} RunIsTransition(rollback: bool, node: Node)
    requires Proceeds(node)
    ensures After(node, Upgrade(rollback, node)) == Apply(node, Transition(rollback, Desired(node), Current(node)))
  {
    var t := Transition(rollback, Desired(node), Current(node));
    var run := Upgrade(rollback, node);
    var tail: seq<Effect> :=
      if ApiServerUnit in node.units && node.units[ApiServerUnit] != Inactive then [Restart(ApiServerUnit)] else [];
    assert run.effects == t + tail;
    RestartsChangeNothing(Apply(node, t), tail);
    ApplyConcat(node, t, tail);
  }

  /** The upgrade transition's effect on the node. */
  lemma {:induction false} UpgradeTransition(node: Node, d: string, c: Record)
    requires Storable(c) && d != "" && LineSafe(d)
    ensures var n1 := Apply(node, Transition(false, d, c));
      && (c.current != d ==> Recorded(n1.record) == Success(Record(d, c.current)))
      && (c.current == d ==> n1 == node.(members := Wipe(node.members, Resolve(MemberDir(d), node.latest))))
      && n1.members == Wipe(if c.current != d && c.previous != "" then Wipe(node.members, Resolve(MemberDir(c.previous), node.latest))
                            else node.members, Resolve(MemberDir(d), node.latest))
      && n1.env == node.env && n1.units == node.units && n1.release == node.release && n1.latest == node.latest
  {
    var purgeD := [Purge(MemberDir(d))];
    if c.current != d {
      var w := [WriteRecord(Record(d, c.current))];
      var purgeB := if c.previous != "" then [Purge(MemberDir(c.previous))] else [];
      assert Transition(false, d, c) == w + (purgeB + purgeD);
      ApplyConcat(node, w, purgeB + purgeD);
      ApplyOne(node, w[0]);
      var n0 := Apply(node, w);
      WrittenRecordReads(Record(d, c.current));
      ApplyConcat(n0, purgeB, purgeD);
      if c.previous != "" {
        ApplyOne(n0, purgeB[0]);
      }
      ApplyOne(Apply(n0, purgeB), purgeD[0]);
    } else {
      assert Transition(false, d, c) == purgeD;
      ApplyOne(node, purgeD[0]);
    }
  }

  /** The rollback transition's effect on the node: it re-records the backup, if any, and wipes nothing. */
  lemma {:induction false} RollbackTransition(node: Node, d: string, c: Record)
    requires Storable(c)
    ensures var n1 := Apply(node, Transition(true, d, c));
      && (c.previous != "" ==>
            && n1 == node.(record := Content(RecordText(c.previous, "")))
            && Recorded(n1.record) == Success(Record(c.previous, "")))
      && (c.previous == "" ==> n1 == node)
  {
    if c.previous != "" {
      ApplyOne(node, WriteRecord(Record(c.previous, "")));
      WrittenRecordReads(Record(c.previous, ""));
    }
  }

  /**
   * An upgrade run that gets going records the desired version with the old current
   * one as backup unless they already agree, wipes the old backup's data when it is
   * displaced, always wipes the desired version's data, each with everything below
   * it, and wipes nothing else.
   */
  lemma {:induction false} UpgradeStep(node: Node)
    requires WellFormed(node) && Proceeds(node)
    ensures var d := Desired(node);
      var c := Current(node);
      var n1 := After(node, Upgrade(false, node));
      && Recorded(n1.record) == Success(if c.current != d then Record(d, c.current) else c)
      && n1.members == Wipe(if c.current != d && c.previous != "" then Wipe(node.members, Resolve(MemberDir(c.previous), node.latest))
                            else node.members, Resolve(MemberDir(d), node.latest))
      && n1.env == node.env && n1.units == node.units && n1.release == node.release && n1.latest == node.latest
  {
    CurrentStorable(node);
    RunIsTransition(false, node);
    UpgradeTransition(node, Desired(node), Current(node));
  }

  /** Restarts leave the modelled node state alone. */
  lemma {:induction false} RestartsChangeNothing(node: Node, effects: seq<Effect>)
    requires forall i :: 0 <= i < |effects| ==> effects[i].Restart?
    ensures Apply(node, effects) == node
    decreases |effects|
  {
    if |effects| > 0 {
      assert effects[0].Restart?;
      RestartsChangeNothing(node, effects[1..]);
    }
  }

  /** A rollback run that gets going makes the backup current, with no backup, and wipes no data. */
  lemma {:induction false} RollbackStep(node: Node)
    requires WellFormed(node) && Proceeds(node)
    ensures var c := Current(node);
      var n1 := After(node, Upgrade(true, node));
      && Recorded(n1.record) == Success(if c.previous != "" then Record(c.previous, "") else c)
      && n1.members == node.members
      && n1.env == node.env && n1.units == node.units && n1.release == node.release
  {
    CurrentStorable(node);
    RunIsTransition(true, node);
    RollbackTransition(node, Desired(node), Current(node));
  }

  /** A unit that is running blocks the run before anything is done, with a BadParameter error. */
  lemma BusyUnitBlocks(rollback: bool, node: Node, i: int)
    requires node.env.Some? && Get(node.env.value, ProxyKey) != ProxyOn
    requires 0 <= i < |GuardedUnits| && GuardedUnits[i] in node.units
    requires !Stopped(node.units[GuardedUnits[i]])
    ensures var run := Upgrade(rollback, node);
      run.effects == [] && run.failure.Some? && run.failure.value.UnitBusy? && run.failure.value.IsBadParameter()
  {
  }

  /** A unit whose status cannot be queried is passed over as if it were stopped. */
  lemma {:induction false} FailedQueryIsSkipped(rollback: bool, node: Node, unit: string)
    requires unit in GuardedUnits
    ensures Upgrade(rollback, node.(units := node.units - {unit}))
         == Upgrade(rollback, node.(units := node.units[unit := Inactive]))
  {
    var n1 := node.(units := node.units - {unit});
    var n2 := node.(units := node.units[unit := Inactive]);
    assert BusyUnit(n1.units, GuardedUnits) == BusyUnit(n2.units, GuardedUnits) by {
      if unit == EtcdUnit {
        assert GuardedUnits[1..] == [EtcdUpgradeUnit];
      } else {
        assert GuardedUnits[1..] == [EtcdUpgradeUnit];
        assert GuardedUnits[1..][1..] == [];
      }
    }
    assert unit != ApiServerUnit;
    assert (ApiServerUnit in n1.units) == (ApiServerUnit in n2.units);
    assert ApiServerUnit in n1.units ==> n1.units[ApiServerUnit] == n2.units[ApiServerUnit];
  }

  /**
   * Re-entrancy: repeating a run, upgrade or rollback, on the node it produced
   * changes nothing further, in the record or in the data directories.
   */
  lemma {:induction false} RunIsIdempotent(rollback: bool, node: Node)
    requires WellFormed(node)
    ensures var n1 := After(node, Upgrade(rollback, node));
      After(n1, Upgrade(rollback, n1)) == n1
  {
    var n1 := After(node, Upgrade(rollback, node));
    if !Proceeds(node) {
      assert Upgrade(rollback, node).effects == [];
      assert n1 == node;
    } else if rollback {
      RollbackIsIdempotent(node);
    } else {
      UpgradeIsIdempotent(node);
    }
  }

  /** The upgrade half of `RunIsIdempotent`, for a run that gets going. */
  lemma {:induction false} UpgradeIsIdempotent(node: Node)
    requires WellFormed(node) && Proceeds(node)
    ensures var n1 := After(node, Upgrade(false, node));
      After(n1, Upgrade(false, n1)) == n1
  {
    var n1 := After(node, Upgrade(false, node));
    var d := Desired(node);
    var c := Current(node);
    CurrentStorable(node);
    RunIsTransition(false, node);
    UpgradeTransition(node, d, c);
    var c' := if c.current != d then Record(d, c.current) else c;
    assert Recorded(n1.record) == Success(c') by {
      if c.current == d {
        assert n1.record == node.record;
      }
    }
    assert Proceeds(n1);
    assert Desired(n1) == d;
    RunIsTransition(false, n1);
    UpgradeTransition(n1, d, c');
    WipeWiped(n1.members, Resolve(MemberDir(d), node.latest));
  }

  /** Removing a directory again removes nothing more. */
  lemma {:induction false} WipeWiped(members: set<string>, dir: string)
    requires forall m :: m in members ==> !Within(m, dir)
    ensures Wipe(members, dir) == members
  {
  }

  /** The rollback half of `RunIsIdempotent`, for a run that gets going. */
  lemma {:induction false} RollbackIsIdempotent(node: Node)
    requires WellFormed(node) && Proceeds(node)
    ensures var n1 := After(node, Upgrade(true, node));
      After(n1, Upgrade(true, n1)) == n1
  {
    var n1 := After(node, Upgrade(true, node));
    var c := Current(node);
    CurrentStorable(node);
    RunIsTransition(true, node);
    RollbackTransition(node, Desired(node), c);
    if c.previous != "" {
      assert Proceeds(n1);
      assert Current(n1) == Record(c.previous, "");
      RunIsTransition(true, n1);
      RollbackTransition(n1, Desired(n1), Current(n1));
    }
  }

  /** Rolling back after an upgrade away from `c` makes `c` current again, with no backup. */
  lemma {:induction false} UpgradeThenRollback(node: Node)
    requires WellFormed(node) && Proceeds(node)
    requires Current(node).current != Desired(node)
    ensures var n1 := After(node, Upgrade(false, node));
      var n2 := After(n1, Upgrade(true, n1));
      && Recorded(n2.record) == Success(Record(Current(node).current, ""))
      && n2.members == n1.members
  {
    var d := Desired(node);
    var c := Current(node);
    var n1 := After(node, Upgrade(false, node));
    UpgradeStep(node);
    assert Proceeds(n1);
    CurrentStorable(node);
    assert WellFormed(n1) by {
      RoundTrip(d, c.current);
    }
    RollbackStep(n1);
  }

  /** Whatever the record, rollback, upgrade, rollback ends where the first rollback did. */
  lemma {:induction false} RollbackUpgradeRollback(node: Node)
    requires WellFormed(node)
    ensures var n1 := After(node, Upgrade(true, node));
      var n2 := After(n1, Upgrade(false, n1));
      var n3 := After(n2, Upgrade(true, n2));
      Recorded(n3.record) == Recorded(n1.record)
  {
    var n1 := After(node, Upgrade(true, node));
    var n2 := After(n1, Upgrade(false, n1));
    if !Proceeds(node) {
      assert Upgrade(true, node).effects == [];
      assert n1 == node;
      assert !Proceeds(n1);
      assert Upgrade(false, n1).effects == [];
      assert n2 == n1;
      RunIsIdempotent(true, node);
    } else {
      RollbackStep(node);
      var c := Current(node);
      var r1 := if c.previous != "" then Record(c.previous, "") else c;
      CurrentStorable(node);
      assert Proceeds(n1);
      assert WellFormed(n1) by {
        if c.previous != "" {
          RoundTrip(c.previous, "");
        }
      }
      assert Current(n1) == r1;
      assert r1.previous == "";
      if r1.current != Desired(n1) {
        UpgradeThenRollback(n1);
      } else {
        UpgradeStep(n1);
        var n3 := After(n2, Upgrade(true, n2));
        assert Proceeds(n2);
        assert Current(n2) == r1;
        assert WellFormed(n2);
        RollbackStep(n2);
      }
    }
  }

  /** A record never names the same version as current and backup. */
  predicate Coherent(r: Record)
  {
    r.previous != r.current
  }

  /** Upgrade and rollback runs keep the record coherent. */
  lemma {:induction false} RunKeepsRecordCoherent(rollback: bool, node: Node)
    requires WellFormed(node) && Proceeds(node)
    requires Coherent(Current(node))
    ensures var n1 := After(node, Upgrade(rollback, node));
      Recorded(n1.record).Success? && Coherent(Recorded(n1.record).value)
  {
    if rollback {
      RollbackStep(node);
    } else {
      UpgradeStep(node);
    }
  }

  /**
   * An upgrade run never wipes the data of the version it leaves recorded as the
   * backup, so a later rollback finds that data in place. Labels must be plain; the
   * kept version must not be labelled like a data directory, whose data would lie
   * inside the sentinel version's data directory; and no label may be `latest`,
   * whose data directory path runs through the "latest" link.
   */
  lemma {:induction false} UpgradeKeepsRollbackData(node: Node)
    requires WellFormed(node) && Proceeds(node)
    requires Coherent(Current(node))
    requires Plain(Desired(node)) && Plain(Current(node).current)
    requires Current(node).previous == "" || Plain(Current(node).previous)
    requires Current(node).current != DataSegment && Current(node).previous != DataSegment
    requires Desired(node) != LatestSegment
    requires Current(node).current != LatestSegment && Current(node).previous != LatestSegment
    ensures var n1 := After(node, Upgrade(false, node));
      && Recorded(n1.record).Success?
      && var kept := Recorded(n1.record).value.previous;
         kept != "" ==> (MemberDir(kept) in n1.members <==> MemberDir(kept) in node.members)
  {
    var d := Desired(node);
    var c := Current(node);
    UpgradeStep(node);
    var kept := if c.current != d then c.current else c.previous;
    if kept != "" {
      KeptOutsideWiped(c, d, node.latest);
      KeptMember(node.members, MemberDir(kept), Resolve(MemberDir(d), node.latest),
                 Resolve(MemberDir(c.previous), node.latest), c.current != d && c.previous != "");
    }
  }

  /** Removing directories that do not hold `x` leaves `x`'s membership alone. */
  lemma KeptMember(members: set<string>, x: string, a: string, b: string, dropB: bool)
    requires !Within(x, a) && (dropB ==> !Within(x, b))
    ensures x in Wipe(if dropB then Wipe(members, b) else members, a) <==> x in members
  {
  }

  /**
   * The version an upgrade leaves as backup has its data outside both directories
   * the upgrade removes, wherever the "latest" link points.
   */
  lemma {:induction false} KeptOutsideWiped(c: Record, d: string, link: Option<string>)
    requires Coherent(c) && Plain(d) && Plain(c.current)
    requires c.previous == "" || Plain(c.previous)
    requires c.current != DataSegment && c.previous != DataSegment
    requires d != LatestSegment && c.current != LatestSegment && c.previous != LatestSegment
    ensures var kept := if c.current != d then c.current else c.previous;
      kept != "" ==>
        && !Within(MemberDir(kept), Resolve(MemberDir(d), link))
        && (c.current != d && c.previous != "" ==> !Within(MemberDir(kept), Resolve(MemberDir(c.previous), link)))
  {
    ResolveAvoidsLink(d, link);
    if c.previous != "" {
      ResolveAvoidsLink(c.previous, link);
    }
    if c.current != d {
      MemberDirsNotNested(c.current, d);
      if c.previous != "" {
        MemberDirsNotNested(c.current, c.previous);
      }
    } else if c.previous != "" {
      MemberDirsNotNested(c.previous, d);
    }
  }

  /** A plain label other than `latest` names its data directory without going through the link. */
  lemma {:induction false} ResolveAvoidsLink(version: string, link: Option<string>)
    requires Plain(version) && version != LatestSegment
    ensures Resolve(MemberDir(version), link) == MemberDir(version)
  {
    MemberDirOutsideLatest(version);
  }

  /** A path below the link resolves to the same path below the link's target. */
  lemma {:induction false} ResolveBelowLink(rest: string, target: string)
    requires |rest| > 0 && rest[0] == '/'
    ensures Resolve(LatestDir() + rest, Some(target)) == target + rest
  {
    var l := LatestDir();
    assert (l + rest)[..|l| + 1] == l + "/";
    assert (l + rest)[|l|..] == rest;
  }

  /** Removing the data directory of a version labelled `latest` removes the data of the version the link points at. */
  lemma {:induction false} LatestLabelReachesLinkedData(version: string)
    requires Plain(version)
    ensures Resolve(MemberDir(LatestSegment), Some(BaseDir(version))) == MemberDir(version)
  {
    LatestLabelRunsThroughLink();
    MemberDirBelowStore(version);
    ResolveBelowLink("/" + DataSegment, BaseDir(version));
  }

  /**
   * Upgrading to a version labelled `latest` on a node whose "latest" link points
   * at the current version's store removes the data of that current version, which
   * the same run records as the backup.
   */
  lemma {:induction false} LatestLabelLosesBackup(node: Node)
    requires WellFormed(node) && Proceeds(node)
    requires Desired(node) == LatestSegment
    requires Plain(Current(node).current) && Current(node).current != LatestSegment
    requires node.latest == Some(BaseDir(Current(node).current))
    ensures var n1 := After(node, Upgrade(false, node));
      && Recorded(n1.record) == Success(Record(LatestSegment, Current(node).current))
      && MemberDir(Current(node).current) !in n1.members
  {
    UpgradeStep(node);
    LatestLabelReachesLinkedData(Current(node).current);
  }
}

=== FILE: wrappers.dfy ===
/** Failure-compatible return types shared by the whole model. */
module Wrappers {

  /** A value that may be absent. */
  datatype Option<+T> = None | Some(value: T)

  /** The outcome of an operation that either produces a value or fails with an error. */
  datatype Result<+T, +E> = Success(value: T) | Failure(error: E) {

    predicate IsFailure() {
      Failure?
    }

    function PropagateFailure<U>(): Result<U, E>
      requires Failure?
    {
      Failure(error)
    }

    function Extract(): T
      requires Success?
    {
      value
    }
  }
}
